=== FILE: README.md ===
# subxt-gen type collection, modelled in Dafny

subxt-gen reads version-12 runtime metadata of a Substrate chain and generates
client code for each runtime module. This project models the part that decides
what that code is about: the `RuntimeType` algebra of type expressions and the
collection of types built on it.

The `RuntimeType` algebra has three operations:

- its rendering (`Display`);
- its parser (`FromStr`) with the `match_literal!`, `inner_literal!` and
  `outer_literal!` substring macros;
- the collection of the named types it references (`flatten_complex`).

The collection of types built on the algebra has four parts:

- the guard that rejects metadata fields still in their encoded form;
- the three entry decoders, which give the types each call, event and storage
  entry references;
- `add_module`, which skips `System`, gathers calls, then events, then storage,
  and reduces the named types to a set of associated types minus four built-in
  names;
- `decode_metadata`, which accepts only version 12 and stops at the first
  failing module.

The parser is proved total, and each of its branches is described. The main
theorem is `GrammarRoundTrip.RoundTrip`: parsing a rendering gives the type
back, for any well-formed type. Well-formed means:

- scalar names come from the closed set;
- named types are identifiers that are not scalar names;
- tuples are non-empty;
- no tuple element renders with a comma.

The decoders are stated against independent descriptions:

- the per-element parse;
- the order value, key, second key for storage;
- the `Mentions` relation on type trees for dependencies.

Two consequences of the parser are worth stating up front:

- **`()`.** `()` parses to a one-element tuple holding `Complex("")`, not
  the empty tuple, so the empty tuple does not survive rendering and parsing.
  See `GrammarExamples.UnitIsNotEmptyTuple` and
  `GrammarExamples.EmptyTupleNotRecovered`.
- **Round trip.** The round trip holds under the conditions above; a type
  outside them, such as a tuple of two or more elements nested in a tuple
  element, can come back different.

Modules:

| module | role |
|---|---|
| `Results` | `Result`, `Option`, the two errors, `collect` (`MapAll`) and the extend loop (`ConcatMap`) |
| `Text` | the Rust string operations used: `find`, `rfind`, `trim`, `trim_start_matches`, `split`, `join` |
| `RuntimeTypes` | the datatype, `flatten_complex`, rendering |
| `Parser`, `ParserBranches` | `from_str` and its literal macros; one lemma per branch |
| `GrammarRoundTrip`, `GrammarExamples` | the round trip and concrete inputs |
| `Decode`, `MetadataV12` | the decode guard and the part of the version-12 schema that is read |
| `Calls`, `Events`, `Storage` | the entry decoders |
| `Modules`, `ModuleExamples` | `add_module` |
| `Driver` | `decode_metadata` |

## Model

| member | source | states |
|---|---|---|
| Text.Find | src/lib.rs:80 | `find` returns the first position where the pattern occurs, or nothing when it occurs nowhere |
| Text.RFind | src/lib.rs:81 | `rfind` returns the last position where the pattern occurs, or nothing when it occurs nowhere |
| Text.FindPrefix | src/lib.rs:74 | a string that starts with the pattern finds it at position 0 |
| Text.RFindFinal | src/lib.rs:81 | a string ending in a character contains it, and its last occurrence is the final position |
| Text.FindAbsent | src/lib.rs:88 | a character that does not occur is not found |
| Text.TrimStart | src/lib.rs:103 | the result is a suffix of the input; everything removed is white space; the result does not start with white space |
| Text.TrimEnd | src/lib.rs:103 | the result is a prefix of the input; everything removed is white space; the result does not end with white space |
| Text.Trim | src/lib.rs:103 | `trim` never lengthens its input, leaves no white space at either end, and leaves an input without white space at its ends unchanged |
| Text.TrimKeepsMiddle | src/lib.rs:103 | `trim` removes only white space at the two ends: its result is a slice of the input, and everything before and after that slice is white space |
| Text.TrimStartMatches | src/lib.rs:103 | the removed prefix is a whole number of copies of the pattern, and the result no longer starts with the pattern |
| Text.TrimStartMatchesStep | src/lib.rs:103 | one leading copy of the pattern more or less does not change the result |
| Text.Split | src/lib.rs:116 | `split` on a character gives at least one piece; no piece holds the separator; joining the pieces with it gives the input back |
| Text.SplitJoin | src/lib.rs:116 | splitting a join of at least one separator-free part gives the parts back |
| Text.SplitCount | src/lib.rs:114-119 | splitting gives exactly one more piece than the input has separators |
| Text.SplitPrefix | src/lib.rs:116 | a separator-free prefix becomes the start of the first piece |
| RuntimeTypes.FlattenEach | src/lib.rs:47 | a name is collected from a tuple exactly when some element collects it |
| RuntimeTypes.FlattenComplexMentions | src/lib.rs:41-49 | `flatten_complex` collects a name exactly when it is a `Complex` leaf somewhere in the type |
| RuntimeTypes.FlattenEachAppend | src/lib.rs:47 | flattening a concatenation of element lists concatenates the flattenings |
| RuntimeTypes.RenderEach | src/lib.rs:62-66 | one rendering per tuple element, in element order |
| RuntimeTypes.CommaFreeRender | src/lib.rs:52-70 | a rendering holds a comma exactly when the type contains a tuple of two or more elements or a name with a comma |
| Parser.InnerLiteral | src/lib.rs:78-84 | the slice `inner_literal!` returns is exactly as long as the distance from the end of the first start pattern (or the beginning) to the last stop pattern (or the end) |
| Parser.InnerTo | src/lib.rs:81 | the slice end `inner_literal!` computes lies within the line |
| Parser.WrapperInterior | src/lib.rs:78-84 | for a line that starts with the opening pattern and holds the one-character closing one, the interior runs from the end of the prefix to the last closing character, which lies past the prefix |
| Parser.Normalize | src/lib.rs:103 | after `trim` and `trim_start_matches("T::")` the string is no longer and does not start with `T::` |
| Parser.FromStr | src/lib.rs:100-128 | parsing never fails: every branch yields a type |
| Parser.ParsePrimitive | src/lib.rs:103-107 | the result is a `Primitive` exactly when the normalised input is one of the thirteen scalar names, and then carries that name |
| Parser.ParseCompound | src/lib.rs:108-124 | the branches after the scalar names never fail and never produce a `Primitive` |
| Parser.ParseEach | src/lib.rs:114-119 | collecting the parses of the tuple pieces never fails |
| Parser.ParseEachParses | src/lib.rs:114-119 | the collection holds one parse per piece, each the parse of that piece, in piece order |
| ParserBranches.ParseOptionBranch | src/lib.rs:108-110 | `Option<…>` with a `>` wraps the parse of the text between the prefix and the last `>` |
| ParserBranches.ParseVecBranch | src/lib.rs:111-113 | `Vec<…>` with a `>` wraps the parse of the text between the prefix and the last `>` |
| ParserBranches.ParseTupleBranch | src/lib.rs:114-119 | `(…)` gives a tuple with one element per comma-separated piece of the interior up to the last `)`, so one more element than commas |
| ParserBranches.ParseNamedBranch | src/lib.rs:120-124 | any other input is a named type: the span from the first `<` to the last `>` is cut out and leading `::` are stripped |
| ParserBranches.OuterLiteralCut | src/lib.rs:86-98 | `outer_literal!` leaves a line without both brackets alone and otherwise keeps what precedes the first `<` and follows the last `>` |
| GrammarRoundTrip.PrimitiveNames | src/lib.rs:106-107 | every scalar name is an identifier starting with `b`, `i` or `u` |
| GrammarRoundTrip.RoundTripPrimitive | src/lib.rs:55 | a scalar name parses back to itself |
| GrammarRoundTrip.RoundTripComplex | src/lib.rs:56 | `T::` followed by an identifier that is not a scalar name parses back to the named type |
| GrammarRoundTrip.RoundTripOption | src/lib.rs:57 | an `Option` round-trips whenever its inner type does |
| GrammarRoundTrip.RoundTripVec | src/lib.rs:58 | a `Vec` round-trips whenever its inner type does |
| GrammarRoundTrip.RoundTripTuple | src/lib.rs:59-67 | a non-empty tuple of comma-free elements round-trips whenever each element does |
| GrammarRoundTrip.RoundTrip | src/lib.rs:52-127 | parsing the rendering of any well-formed type gives the type back |
| GrammarExamples.RenderNestedPair | src/lib.rs:52-70 | `Vec(Option(Tuple([u32, Hash])))` renders as `Vec<Option<(u32,T::Hash)>>` |
| GrammarExamples.ParseNestedPair | src/lib.rs:100-128 | `Vec<Option<(u32,T::Hash)>>` parses to `Vec(Option(Tuple([Primitive("u32"), Complex("Hash")])))` |
| GrammarExamples.ParseGenericNamed | src/lib.rs:105-124 | any identifier other than `Option` and `Vec`, scalar names included, applied to any generic arguments parses to the bare named type |
| GrammarExamples.ParseBalanceOf | src/lib.rs:120-124 | `BalanceOf<T>` parses to `Complex("BalanceOf")` |
| GrammarExamples.ParseAppliedScalar | src/lib.rs:105-124 | `u32<T>` matches none of the scalar names and parses to `Complex("u32")` |
| GrammarExamples.UnitIsNotEmptyTuple | src/lib.rs:114-119 | `()` parses to a one-element tuple holding `Complex("")`, not to the empty tuple |
| GrammarExamples.EmptyTupleNotRecovered | src/lib.rs:59-67 | the empty tuple renders as `()` and does not parse back to itself |
| GrammarExamples.UnitParses | src/lib.rs:114-124 | any two-character string `()` parses to the one-element tuple of the unnamed type |
| GrammarExamples.EmptyIsUnnamed | src/lib.rs:120-124 | the empty string parses to a named type with an empty name |
| GrammarExamples.FlattenExamples | src/lib.rs:41-49 | a scalar collects nothing; `(Foo, Vec<Option<Bar>>)` collects `Foo` then `Bar` |
| Results.MapAll | src/v12/event.rs:16-19 | collecting results succeeds exactly when every element succeeds, with one value per element in order; otherwise it reports the error of the first failing element |
| Results.MapAllFailure | src/v12/event.rs:16-19 | collecting results reports the error of the first failing element, whichever later elements also fail |
| Results.ConcatMap | src/v12/mod.rs:28-30 | the loop that extends an accumulator with each result fails exactly when collecting fails, with the same error, and otherwise yields the in-order concatenation of the results |
| Decode.DecodeOrElse | src/v12/mod.rs:104-115 | a field is read exactly when it is decoded, giving its value; a placeholder gives the not-decoded error |
| Decode.DecodeArrayOrElse | src/v12/mod.rs:91-102 | a sequence field is read exactly when it is decoded, giving its value; a placeholder gives the not-decoded error |
| Decode.DecodeArrayAgrees | src/v12/mod.rs:91-115 | the array guard and the scalar guard agree |
| Calls.ArgumentTryInto | src/v12/call.rs:16-25 | an argument converts exactly when its name and type are decoded, to its name paired with the parse of its type |
| Calls.AddCallToModule | src/v12/call.rs:32-38 | a call succeeds exactly when its name, its argument list and every argument's two fields are decoded, and then yields one type per argument in argument order, each the parse of that argument's type string (the list returned at line 124) |
| Calls.CallWithoutArguments | src/v12/call.rs:124 | a call without arguments contributes no types |
| Events.AddEventToModule | src/v12/event.rs:14-19 | an event succeeds exactly when its name and argument list are decoded, and then yields the parse of each argument string, in order (the list returned at line 61) |
| Events.EventWithoutArguments | src/v12/event.rs:15-19 | an event without arguments contributes the empty list |
| Events.EventArgumentsRoundTrip | src/v12/event.rs:16-19 | an event whose argument strings render round-tripping types yields exactly those types |
| Storage.AccessorName | src/v12/store.rs:28-35 | a plain entry gets the accessor `plain`, a map `map` and a double map `double_map`, and no other name occurs |
| Storage.AccessorDistinguishesShapes | src/v12/store.rs:30-34 | two entries get the same accessor exactly when they have the same shape |
| Storage.TypeStrings | src/v12/store.rs:37-58 | a plain entry has one type string, a map two and a double map three, the value's first |
| Storage.EntryTypeParts | src/v12/store.rs:37-43 | the destructured value is the shape's value; a first key is present exactly unless the shape is plain and a second key exactly for a double map, each the shape's key in order |
| Storage.ParseStorageType | src/v12/store.rs:19-23 | a storage type string parses exactly when decoded, to the parse of its text |
| Storage.ParseKey | src/v12/store.rs:47-59 | an absent key yields no key; a present key yields a key exactly when its string is decoded |
| Storage.ClassifyKeys | src/v12/store.rs:61-75 | the key form holds exactly the keys present, in order, including a lone second key |
| Storage.DecodeEntry | src/v12/store.rs:25-59 | an entry decodes exactly when its name and every type string of its shape are decoded; it then gets the accessor of its shape, contributes the parses of its type strings in the order value, first key, second key, and has no, one or two keys for a plain, map or double map |
| Storage.PartsParsed | src/v12/store.rs:45-59 | for any type-string parser, parsing the value and then each present key one by one gives the same types as parsing the shape's type strings in order, and the key form follows the shape |
| Storage.HashersIgnored | src/v12/store.rs:37-43 | changing the hashers or the `unused` flag of an entry changes nothing |
| Storage.AddStorageToModule | src/v12/store.rs:14-25 | storage succeeds exactly when its prefix (though unused), its entry list and every entry are decoded, and then yields the in-order concatenation of the entries' types (returned at line 159) |
| Storage.SingleEntryStorage | src/v12/store.rs:25 | a storage with a single entry contributes exactly that entry's types |
| Modules.CallsPart | src/v12/mod.rs:26-31 | no calls section gives no types; otherwise the section must be decoded and every call succeed, and the types are the calls' types concatenated in call order |
| Modules.EventsPart | src/v12/mod.rs:33-42 | no events section gives no types; otherwise the section must be decoded and every event succeed, and the types are the events' types concatenated in event order |
| Modules.StoragePart | src/v12/mod.rs:44-51 | no storage section gives no types; otherwise the section must be decoded and the storage succeed, giving its types |
| Modules.CollectTypes | src/v12/mod.rs:23-51 | a module's types are its calls' types, then its events', then its storage's, and any failing part aborts the module |
| Modules.Dependencies | src/v12/mod.rs:53-61 | a name is an associated type exactly when some collected type has it as a `Complex` leaf and it is not one of `BlockNumber`, `AccountId`, `AccountData`, `Hash` |
| Modules.MentionedNames | src/v12/mod.rs:53-56 | a name occurs in the flattening of the collected types exactly when one of them mentions it |
| Modules.AddModule | src/v12/mod.rs:16-61 | an undecoded module name is an error; a name that CamelCases to `System` skips the module whatever its sections hold; otherwise the module succeeds exactly when its types can be collected, and yields its CamelCase name, those types and their dependencies; a successful outcome is a skip exactly when the name is `System` |
| Modules.ExcludedNeverDependencies | src/v12/mod.rs:58-61 | no excluded name is ever a dependency |
| Modules.ExclusionIdempotent | src/v12/mod.rs:58-61 | removing the excluded names again changes nothing |
| Modules.DependenciesAppend | src/v12/mod.rs:53-56 | the dependencies of two type lists together are the union of their dependencies |
| Modules.DependenciesDuplicate | src/v12/mod.rs:53-56 | collecting the same types twice gives the same set |
| Modules.EmptyModule | src/v12/mod.rs:26-51 | a module without calls, events or storage yields no types and no dependencies |
| ModuleExamples.ParseIdentifier | src/lib.rs:120-124 | a bare identifier that is not a scalar name parses to the named type of that name |
| ModuleExamples.IdentifierEvent | src/v12/event.rs:16-19 | an event whose arguments are bare non-scalar identifiers yields the named type of each |
| ModuleExamples.IdentifierEventModule | src/v12/mod.rs:26-51 | a module whose only section is one event with bare non-scalar identifier arguments collects the named type of each argument, in order |
| ModuleExamples.TransferModuleTypes | src/v12/mod.rs:33-42 | a module with one event `(account, account, balance)` collects exactly those three named types |
| ModuleExamples.TransferDependencies | src/v12/mod.rs:53-61 | when the account name is excluded and the balance name is not, the balance name is the only dependency |
| ModuleExamples.BalancesModuleOutcome | src/v12/mod.rs:16-61 | the balances module with `Transfer(AccountId, AccountId, Balance)` keeps only `Balance` as an associated type |
| ModuleExamples.SystemSkippedWhateverItHolds | src/v12/mod.rs:17-21 | the system module is skipped even when all its sections are placeholders |
| Driver.ProcessInOrder | src/lib.rs:19-23 | the loop over the modules, which stops at the first failing step, has the same outcome as collecting every step's result (`Results.MapAll`): one result per module in module order when every step succeeds, otherwise the error of the first failing step |
| Driver.DecodeMetadata | src/lib.rs:11-29 | a version other than 12 is rejected as unsupported; a placeholder module list is an error; otherwise the result holds one outcome per module, in module order, exactly when every module succeeds, and else it is the error of the first module that fails |

## Left out

- `src/main.rs`: fetching metadata over JSON-RPC and hex and SCALE decoding are I/O and foreign libraries. `decode_metadata` takes the decoded document as its argument.
- Code generation: every `quote!` and `format_ident!` token stream is left out. The `stream` arguments and the `module_name` argument of the entry decoders exist only for it. The model returns what each module contributes (`ModuleOutcome`) instead of the tokens. In particular `format_ident!("{}", rt)` at src/v12/mod.rs:65 panics on a dependency name that is not a Rust identifier, such as the empty name `()` yields; `Modules.AddModule` succeeds in that case, where the program would succeed only up to that panic.
- `heck`'s `to_camel_case` and `to_snake_case` are not modelled. CamelCase conversion is the function parameter `camelCase`, and snake case only names generated items.
- `HashSet` hashing and iteration order: the dependency collection is a mathematical set.
- `color_eyre` reports: the two messages the program's own code produces are the two `Error` values. A third, the error `syn::parse_str` can return for a storage type, is not modelled (see the Storage.ParseStorageType line below).
- Calls.AddCallToModule: does not model the `syn::parse_str(...).unwrap()` at src/v12/call.rs:55, which panics on a rendering that is not Rust type syntax. The Rust syntax parser is not part of this model.
- Events.AddEventToModule: does not model the `syn::parse_str(...).unwrap()` panic at src/v12/event.rs:33, for the same reason.
- Storage.ParseStorageType: does not model the error that `syn::parse_str` can return at src/v12/store.rs:22. The model succeeds wherever the type string is decoded.
- Parser.OuterLiteral: models `find`/`rfind` positions and `chars().take/skip` counts as the same character index. They agree only for ASCII text; outside ASCII the program mixes byte offsets with character counts.
- Text.Trim: `trim` strips the Unicode White_Space characters. Strings are sequences of characters, with no encoding, normalisation or case folding.
- The version-12 schema keeps only the fields the program reads. Documentation, storage modifiers, default values, constants, errors and the module index are left out. Other metadata versions are collapsed into `OtherVersion(version)`.
- `DecodeDifferentArray` and `DecodeDifferent` are both modelled as `DecodeDifferent`, whose placeholder carries no payload; the program never reads it.

=== FILE: call.dfy ===
/**
 The type list a callable function contributes to its module: the parsed
 type of each argument, in argument order.
 */
module Calls {
  import opened Results
  import opened RuntimeTypes
  import opened Parser
  import opened Decode
  import opened MetadataV12

  /** A decoded argument: its name and its parsed type. */
  datatype FunctionArgument = FunctionArgument(name: string, ty: RuntimeType)

  /** `FunctionArgument::try_into`: decodes the type string, then the name,
      then parses the type. It succeeds exactly when both fields are
      decoded. */
  function ArgumentTryInto(a: FunctionArgumentMetadata): (r: Result<FunctionArgument>)
    ensures r.Ok? <==> a.name.Decoded? && a.ty.Decoded?
    ensures r.Ok? ==> r.value.name == a.name.value
    ensures r.Ok? ==> r.value.ty == FromStr(a.ty.value).value
    ensures r.Err? ==> r.error == NotDecoded
  {
    var ty :- DecodeOrElse(a.ty);
    var name :- DecodeOrElse(a.name);
    match FromStr(ty)
    case Err(e) => Err(e)
    case Ok(parsed) => Ok(FunctionArgument(name, parsed))
  }

  /** All arguments of a call have both their fields decoded. */
  predicate ArgumentsDecoded(args: seq<FunctionArgumentMetadata>)
  {
    forall i :: 0 <= i < |args| ==> args[i].name.Decoded? && args[i].ty.Decoded?
  }

  /** The types of the decoded arguments, in order. */
  function ArgumentTypes(args: seq<FunctionArgument>): (tys: seq<RuntimeType>)
    ensures |tys| == |args|
    ensures forall i :: 0 <= i < |args| ==> tys[i] == args[i].ty
  {
    seq(|args|, i requires 0 <= i < |args| => args[i].ty)
  }

  /** The type list of `add_call_to_module`. A placeholder call name, a
      placeholder argument list or a placeholder field in any single
      argument fails the whole call; otherwise there is one type per
      argument, in argument order, each parsed from the argument's type
      string. */
  function AddCallToModule(f: FunctionMetadata): (r: Result<seq<RuntimeType>>)
    ensures r.Ok? <==> f.name.Decoded? && f.arguments.Decoded? && ArgumentsDecoded(f.arguments.value)
    ensures r.Ok? ==> |r.value| == |f.arguments.value|
    ensures r.Ok? ==> forall i :: 0 <= i < |r.value| ==>
      r.value[i] == FromStr(f.arguments.value[i].ty.value).value
    ensures r.Err? ==> r.error == NotDecoded
  {
    var _ :- DecodeOrElse(f.name);
    var metas :- DecodeOrElse(f.arguments);
    var args :- MapAll(metas, ArgumentTryInto);
    Ok(ArgumentTypes(args))
  }

  /** A call without arguments contributes no types. */
  lemma CallWithoutArguments(name: string)
    ensures AddCallToModule(FunctionMetadata(Decoded(name), Decoded([]))) == Ok([])
  {
  }
}

=== FILE: decode.dfy ===
/**
 The decode guard. Every metadata field arrives either already decoded or
 still in its encoded placeholder form; the program reads a field only
 through this guard, which rejects the placeholder.
 */
module Decode {
  import opened Results

  /** A metadata field: `Decoded(value)`, or the `Encode` placeholder whose
      payload the program never looks at. */
  datatype DecodeDifferent<+T> = Encode | Decoded(value: T)

  /** `decode_or_else`: the decoded value, or `NotDecoded` for a
      placeholder. */
  function DecodeOrElse<T>(field: DecodeDifferent<T>): (r: Result<T>)
    ensures r.Ok? <==> field.Decoded?
    ensures r.Ok? ==> r.value == field.value
    ensures r.Err? ==> r.error == NotDecoded
  {
    match field
    case Decoded(v) => Ok(v)
    case Encode => Err(NotDecoded)
  }

  /** `decode_array_or_else` on a sequence-valued field. */
  function DecodeArrayOrElse<T>(field: DecodeDifferent<seq<T>>): (r: Result<seq<T>>)
    ensures r.Ok? <==> field.Decoded?
    ensures r.Ok? ==> r.value == field.value
    ensures r.Err? ==> r.error == NotDecoded
  {
    match field
    case Decoded(v) => Ok(v)
    case Encode => Err(NotDecoded)
  }

  /** The array guard behaves exactly like the scalar guard. */
  lemma DecodeArrayAgrees<T>(field: DecodeDifferent<seq<T>>)
    ensures DecodeArrayOrElse(field) == DecodeOrElse(field)
  {
  }
}

/**
 The version-12 metadata schema, reduced to the fields the type collection
 reads. Documentation, default values and storage modifiers are omitted.
 */
module MetadataV12 {
  import opened Results
  import opened Decode

  datatype FunctionArgumentMetadata = FunctionArgumentMetadata(
    name: DecodeDifferent<string>,
    ty: DecodeDifferent<string>)

  /** A callable function of a module. */
  datatype FunctionMetadata = FunctionMetadata(
    name: DecodeDifferent<string>,
    arguments: DecodeDifferent<seq<FunctionArgumentMetadata>>)

  /** An event of a module; its arguments are bare type strings. */
  datatype EventMetadata = EventMetadata(
    name: DecodeDifferent<string>,
    arguments: DecodeDifferent<seq<string>>)

  datatype StorageHasher =
    | Blake2_128 | Blake2_256 | Blake2_128Concat | Twox128 | Twox256 | Twox64Concat | Identity

  /** The shape of a storage entry with its key and value type strings. */
  datatype StorageEntryType =
    | Plain(value: DecodeDifferent<string>)
    | Map(hasher: StorageHasher, key: DecodeDifferent<string>,
          value: DecodeDifferent<string>, unused: bool)
    | DoubleMap(hasher: StorageHasher, key1: DecodeDifferent<string>,
                key2: DecodeDifferent<string>, value: DecodeDifferent<string>,
                key2Hasher: StorageHasher)

  datatype StorageEntryMetadata = StorageEntryMetadata(
    name: DecodeDifferent<string>,
    ty: StorageEntryType)

  datatype StorageMetadata = StorageMetadata(
    prefix: DecodeDifferent<string>,
    entries: DecodeDifferent<seq<StorageEntryMetadata>>)

  /** A module; each of its three sections may be absent. */
  datatype ModuleMetadata = ModuleMetadata(
    name: DecodeDifferent<string>,
    storage: Option<DecodeDifferent<StorageMetadata>>,
    calls: Option<DecodeDifferent<seq<FunctionMetadata>>>,
    event: Option<DecodeDifferent<seq<EventMetadata>>>)

  /** The versioned metadata document; only version 12 is spelled out. */
  datatype RuntimeMetadata =
    | V12(modules: DecodeDifferent<seq<ModuleMetadata>>)
    | OtherVersion(version: nat)

  /** The document together with its magic-number prefix. */
  datatype RuntimeMetadataPrefixed = RuntimeMetadataPrefixed(magic: nat, metadata: RuntimeMetadata)
}

=== FILE: driver.dfy ===
/**
 `decode_metadata`: the entry point. Only version-12 metadata is accepted;
 its module list must be decoded, and the modules are then processed in
 order, the first failing module aborting the whole decode.
 */
module Driver {
  import opened Results
  import opened Decode
  import opened MetadataV12
  import opened Modules

  /** The metadata is version 12 with a decoded module list. */
  predicate HasModules(metadata: RuntimeMetadataPrefixed)
  {
    metadata.metadata.V12? && metadata.metadata.modules.Decoded?
  }

  /** The decoded module list of version-12 metadata. */
  function ModuleList(metadata: RuntimeMetadataPrefixed): seq<ModuleMetadata>
    requires HasModules(metadata)
  {
    metadata.metadata.modules.value
  }

  /** The program's loop over the modules, with the per-module step as a
      parameter: the steps run in order, each success is kept, and the first
      failure ends the loop with its error. This is the program's `?` loop;
      it gives the same outcome as `collect` into a `Result<Vec<_>>`. */
  method ProcessInOrder<A, B>(xs: seq<A>, step: A -> Result<B>) returns (r: Result<seq<B>>)
    ensures r == MapAll(xs, step)
  {
    var outcomes: seq<B> := [];
    var i := 0;
    while i < |xs|
      invariant 0 <= i <= |xs|
      invariant |outcomes| == i
      invariant forall j :: 0 <= j < i ==> step(xs[j]).Ok? && outcomes[j] == step(xs[j]).value
    {
      var outcome := step(xs[i]);
      if outcome.Err? {
        assert FirstFailure(xs, step, i);
        MapAllFailure(xs, step, i);
        return Err(outcome.error);
      }
      outcomes := outcomes + [outcome.value];
      i := i + 1;
    }
    MapAllValues(xs, step, outcomes);
    return Ok(outcomes);
  }

  /** `decode_metadata`, returning what each module contributes instead of
      the token stream. Any other version is rejected; a placeholder module
      list is rejected; otherwise the result holds one outcome per module, in
      module order, exactly when every module succeeds, and else reports the
      error of the first module that fails. */
  method DecodeMetadata(metadata: RuntimeMetadataPrefixed, camelCase: string -> string)
    returns (r: Result<seq<ModuleOutcome>>)
    ensures metadata.metadata.OtherVersion? ==> r == Err(UnsupportedVersion)
    ensures metadata.metadata.V12? && metadata.metadata.modules.Encode? ==> r == Err(NotDecoded)
    ensures r.Ok? <==> (HasModules(metadata) &&
      forall i :: 0 <= i < |ModuleList(metadata)| ==> AddModule(ModuleList(metadata)[i], camelCase).Ok?)
    ensures r.Ok? ==> |r.value| == |ModuleList(metadata)|
    ensures r.Ok? ==> forall i :: 0 <= i < |r.value| ==>
      r.value[i] == AddModule(ModuleList(metadata)[i], camelCase).value
    ensures r.Err? && HasModules(metadata) ==>
      exists i :: 0 <= i < |ModuleList(metadata)|
        && AddModule(ModuleList(metadata)[i], camelCase).Err?
        && r.error == AddModule(ModuleList(metadata)[i], camelCase).error
        && forall j :: 0 <= j < i ==> AddModule(ModuleList(metadata)[j], camelCase).Ok?
  {
    match metadata.metadata {
      case OtherVersion(_) =>
        return Err(UnsupportedVersion);
      case V12(mods) =>
        var decoded := DecodeArrayOrElse(mods);
        if decoded.Err? {
          return Err(decoded.error);
        }
        var modules := decoded.value;
        assert modules == ModuleList(metadata);
        r := ProcessInOrder(modules, m => AddModule(m, camelCase));
    }
  }
}

=== FILE: event.dfy ===
/**
 The type list an event contributes to its module: its argument type
 strings, each parsed, in order.
 */
module Events {
  import opened Results
  import opened RuntimeTypes
  import opened Parser
  import opened Decode
  import opened MetadataV12

  /** The type list of `add_event_to_module`. The event name and the
      argument list must both be decoded; the result then has one type per
      argument string, in order. */
  function AddEventToModule(e: EventMetadata): (r: Result<seq<RuntimeType>>)
    ensures r.Ok? <==> e.name.Decoded? && e.arguments.Decoded?
    ensures r.Ok? ==> |r.value| == |e.arguments.value|
    ensures r.Ok? ==> forall i :: 0 <= i < |r.value| ==>
      r.value[i] == FromStr(e.arguments.value[i]).value
    ensures r.Err? ==> r.error == NotDecoded
  {
    var _ :- DecodeOrElse(e.name);
    var args :- DecodeOrElse(e.arguments);
    match MapAll(args, FromStr)
    case Err(err) => Err(err)
    case Ok(tys) => Ok(tys)
  }

  /** An event with no arguments contributes the empty list, whatever its
      name. */
  lemma EventWithoutArguments(name: string)
    ensures AddEventToModule(EventMetadata(Decoded(name), Decoded([]))) == Ok([])
  {
  }

  /** An event whose argument strings are the renderings of types that
      survive the round trip yields exactly those types. */
  lemma EventArgumentsRoundTrip(name: string, tys: seq<RuntimeType>)
    requires forall i :: 0 <= i < |tys| ==> FromStr(Render(tys[i])) == Ok(tys[i])
    ensures AddEventToModule(EventMetadata(Decoded(name), Decoded(RenderEach(tys)))) == Ok(tys)
  {
    ParseRenderings(tys);
  }

  /** Parsing the renderings of round-tripping types gives the types. */
  lemma ParseRenderings(tys: seq<RuntimeType>)
    requires forall i :: 0 <= i < |tys| ==> FromStr(Render(tys[i])) == Ok(tys[i])
    ensures MapAll(RenderEach(tys), FromStr) == Ok(tys)
  {
    var args := RenderEach(tys);
    forall i | 0 <= i < |args| ensures FromStr(args[i]) == Ok(tys[i]) {
      assert args[i] == Render(tys[i]);
    }
    MapAllValues(args, FromStr, tys);
  }
}

=== FILE: grammar_examples.dfy ===
/**
 Concrete inputs showing how the grammar treats the type strings found in
 runtime metadata, including the shapes it handles only approximately.
 */
module GrammarExamples {
  import opened Results
  import opened Text
  import opened RuntimeTypes
  import opened Parser
  import opened ParserBranches
  import opened GrammarRoundTrip

  /** The pair `(u32,T::Hash)` inside an `Option` inside a `Vec`. */
  function NestedPair(): RuntimeType
  {
    Vec(Option(Tuple([Primitive("u32"), Complex("Hash")])))
  }

  /** The nested wrapper renders to the metadata's own spelling. */
  lemma RenderNestedPair()
    ensures Render(NestedPair()) == "Vec<Option<(u32,T::Hash)>>"
  {
    var pair := Tuple([Primitive("u32"), Complex("Hash")]);
    var inner := "(u32,T::Hash)";
    var whole := "Vec<" + ("Option<" + inner + ">") + ">";
    assert Render(NestedPair()) == whole by {
      RenderPair();
      assert Render(Option(pair)) == "Option<" + inner + ">";
    }
    assert whole == "Vec<Option<(u32,T::Hash)>>";
  }

  /** The pair alone renders with its elements joined by a comma. */
  lemma RenderPair()
    ensures Render(Tuple([Primitive("u32"), Complex("Hash")])) == "(u32,T::Hash)"
  {
    var ts := [Primitive("u32"), Complex("Hash")];
    var parts := RenderEach(ts);
    assert parts == ["u32", "T::Hash"] by {
      assert ts[1..] == [Complex("Hash")];
      assert Render(Complex("Hash")) == "T::Hash";
      assert RenderEach([Complex("Hash")]) == [Render(Complex("Hash"))] + RenderEach([]);
      assert RenderEach(ts[1..]) == ["T::Hash"];
    }
    assert parts[1..] == ["T::Hash"];
    assert Join(parts, ',') == "u32,T::Hash";
  }

  /** The nested wrapper is within the fragment the round trip covers. */
  lemma NestedPairWellFormed()
    ensures WellFormed(NestedPair())
  {
    var ts := [Primitive("u32"), Complex("Hash")];
    assert IsIdentifier("Hash");
    assert "Hash" !in Primitives;
    assert CommaFree(ts[0]) && CommaFree(ts[1]);
    assert WellFormed(ts[0]) && WellFormed(ts[1]);
  }

  /** `"Vec<Option<(u32,T::Hash)>>"` parses to the nested wrapper. */
  lemma ParseNestedPair()
    ensures FromStr("Vec<Option<(u32,T::Hash)>>") == Ok(NestedPair())
  {
    RenderNestedPair();
    NestedPairWellFormed();
    RoundTrip(NestedPair());
  }

  /** A named type applied to generic arguments reads as the bare name,
      whatever the arguments are, unless the name is one of the wrappers.
      A scalar name applied to arguments is no longer a scalar name and also
      reads as a named type. */
  lemma ParseGenericNamed(base: string, args: string)
    requires IsIdentifier(base)
    requires base != "Option" && base != "Vec"
    ensures FromStr(base + "<" + args + ">") == Ok(Complex(base))
  {
    var s := base + "<" + args + ">";
    assert TrimStartMatches(s[..|base|], "::") == base by {
      assert s[..|base|] == base;
      IdentifierShape(base);
      TrimStartMatchesNoPrefix(base, "::");
    }
    GenericShape(base, args);
    GenericFind(base, args);
    ParseApplied(s, |base|);
  }

  /** A normalised line that is none of the scalars and wrappers, opens its
      first `<` at `k` and ends with `>` names what precedes that `<`. */
  lemma ParseApplied(s: string, k: nat)
    requires Normalize(s) == s && s !in Primitives
    requires !StartsWith(s, "Option<") && !StartsWith(s, "Vec<") && !StartsWith(s, "(")
    requires Find(s, "<") == Some(k)
    requires |s| > 0 && s[|s| - 1] == '>'
    ensures FromStr(s) == Ok(Complex(TrimStartMatches(s[..k], "::")))
  {
    NamedBranchValue(s);
    assert OuterLiteral(s, "<", ">") == s[..k] by {
      RFindFinal(s, '>');
      assert s[..k] + s[|s|..] == s[..k];
    }
  }

  /** An applied generic takes the parser's named-type branch. */
  lemma GenericShape(base: string, args: string)
    requires IsIdentifier(base)
    requires base != "Option" && base != "Vec"
    ensures var s := base + "<" + args + ">";
      && Normalize(s) == s
      && s !in Primitives
      && !StartsWith(s, "Option<") && !StartsWith(s, "Vec<") && !StartsWith(s, "(")
  {
    var s := base + "<" + args + ">";
    IdentifierShape(base);
    assert s[0] == base[0];
    assert Trim(s) == s;
    assert s[1] != ':' by {
      if |base| >= 2 {
        assert s[1] == base[1] && IsIdentChar(base[1]);
      } else {
        assert s[1] == '<';
      }
    }
    assert !StartsWith(s, "T::");
    assert Normalize(s) == s;
    assert s !in Primitives by {
      if s in Primitives {
        PrimitiveNames(s);
      }
    }
    NotWrapperPrefix(base, args, "Option");
    NotWrapperPrefix(base, args, "Vec");
  }

  /** An identifier other than `w` followed by `<` does not start with
      `w + "<"`. */
  lemma NotWrapperPrefix(base: string, args: string, w: string)
    requires IsIdentifier(base) && IsIdentifier(w) && base != w
    ensures !StartsWith(base + "<" + args + ">", w + "<")
  {
    var s := base + "<" + args + ">";
    var p := w + "<";
    if |base| < |w| {
      assert s[|base|] == '<' && IsIdentChar(w[|base|]);
      assert s[|base|] != p[|base|];
    } else if |base| == |w| {
      assert s[..|w|] == base;
    } else {
      assert IsIdentChar(base[|w|]);
      assert s[|w|] == base[|w|] != p[|w|];
    }
  }

  /** The first `<` of an applied generic is the one after its name. */
  lemma GenericFind(base: string, args: string)
    requires '<' !in base
    ensures Find(base + "<" + args + ">", "<") == Some(|base|)
  {
    var s := base + "<" + args + ">";
    assert OccursAt(s, "<", |base|);
    forall j | 0 <= j < |base| ensures !OccursAt(s, "<", j) {
      assert s[j..j + 1] == [base[j]];
    }
  }

  /** `"BalanceOf<T>"` parses to `Complex("BalanceOf")`. */
  lemma ParseBalanceOf()
    ensures FromStr("BalanceOf<T>") == Ok(Complex("BalanceOf"))
  {
    assert IsIdentifier("BalanceOf");
    assert "BalanceOf" + "<" + "T" + ">" == "BalanceOf<T>";
    ParseGenericNamed("BalanceOf", "T");
  }

  /** A scalar name with generic arguments is not a scalar: `"u32<T>"`
      parses to `Complex("u32")`. */
  lemma ParseAppliedScalar()
    ensures FromStr("u32<T>") == Ok(Complex("u32"))
  {
    assert IsIdentifier("u32");
    assert "u32" + "<" + "T" + ">" == "u32<T>";
    ParseGenericNamed("u32", "T");
  }

  /** The empty parenthesis is not an empty tuple: its interior splits into
      one empty piece, which reads as a named type with an empty name. */
  lemma UnitIsNotEmptyTuple()
    ensures FromStr("()") == Ok(Tuple([Complex("")]))
  {
    UnitParses("()");
  }

  /** Hence the empty tuple does not survive the round trip: it renders as
      `()`, which reads back as a one-element tuple. */
  lemma EmptyTupleNotRecovered()
    ensures Render(Tuple([])) == "()"
    ensures FromStr(Render(Tuple([]))) != Ok(Tuple([]))
  {
    var u := Render(Tuple([]));
    assert u == "()" by {
      assert u == "(" + "" + ")";
    }
    assert FromStr(u) == Ok(Tuple([Complex("")])) by {
      UnitParses(u);
    }
  }

  /** Any string spelling `()` parses to the one-element tuple of the
      unnamed type. */
  lemma UnitParses(u: string)
    requires |u| == 2 && u[0] == '(' && u[1] == ')'
    ensures FromStr(u) == Ok(Tuple([Complex("")]))
  {
    UnitShape(u);
    ParseTupleBranch(u);
    EmptyIsUnnamed();
    var elements := FromStr(u).value.elements;
    assert |elements| == 1;
    assert elements[0] == FromStr("").value;
    assert elements == [Complex("")];
  }

  /** `()` takes the tuple branch with an empty interior. */
  lemma UnitShape(u: string)
    requires |u| == 2 && u[0] == '(' && u[1] == ')'
    ensures Normalize(u) == u
    ensures u !in Primitives
    ensures !MatchLiteral(u, "Option<", ">") && !MatchLiteral(u, "Vec<", ">")
    ensures MatchLiteral(u, "(", ")")
    ensures RFind(u, ")") == Some(1)
    ensures Split(u[1..1], ',') == [""]
  {
    BracketedNotPrimitive(u);
    NormalizeBracketed(u);
    RFindFinal(u, ')');
    assert u[1..1] == "";
  }

  /** The empty string parses to a named type with an empty name. */
  lemma EmptyIsUnnamed()
    ensures FromStr("") == Ok(Complex(""))
  {
    assert Normalize("") == "";
    FindAbsent("", '<');
    ParseNamedBranch("");
  }

  /** `flatten_complex` drops scalars and reaches through every wrapper. */
  lemma FlattenExamples()
    ensures FlattenComplex(Primitive("u32")) == []
    ensures FlattenComplex(Tuple([Complex("Foo"), Vec(Option(Complex("Bar")))])) == ["Foo", "Bar"]
  {
    var ts := [Complex("Foo"), Vec(Option(Complex("Bar")))];
    assert ts[1..] == [Vec(Option(Complex("Bar")))];
    assert FlattenEach(ts[1..]) == ["Bar"];
  }
}

=== FILE: module.dfy ===
/**
 `add_module`: the type information generated for one runtime module. The
 `System` module is skipped; otherwise the types of the calls, the events and
 the storage are collected in that order, and the named types they reference,
 less four names the generated code provides itself, become the module's
 associated types.
 */
module Modules {
  import opened Results
  import opened RuntimeTypes
  import opened Decode
  import opened MetadataV12
  import opened Calls
  import opened Events
  import opened Storage

  /** The names removed from every module's dependency set. */
  const Excluded: set<string> := {"BlockNumber", "AccountId", "AccountData", "Hash"}

  /** The types of all calls, in call order; none when the module has no
      calls section. */
  function CallsPart(calls: Option<DecodeDifferent<seq<FunctionMetadata>>>): (r: Result<seq<RuntimeType>>)
    ensures calls.None? ==> r == Ok([])
    ensures calls.Some? ==> (r.Ok? <==>
      calls.value.Decoded? && forall i :: 0 <= i < |calls.value.value| ==> AddCallToModule(calls.value.value[i]).Ok?)
    ensures calls.Some? && r.Ok? ==>
      r.value == Concat(MapAll(calls.value.value, AddCallToModule).value)
    ensures r.Err? ==> r.error == NotDecoded
  {
    match calls
    case None => Ok([])
    case Some(d) =>
      var fs :- DecodeOrElse(d);
      ConcatErrors(fs, AddCallToModule);
      ConcatMap(fs, AddCallToModule)
  }

  /** The types of all events, in event order; none when the module has no
      events section. */
  function EventsPart(events: Option<DecodeDifferent<seq<EventMetadata>>>): (r: Result<seq<RuntimeType>>)
    ensures events.None? ==> r == Ok([])
    ensures events.Some? ==> (r.Ok? <==>
      events.value.Decoded? && forall i :: 0 <= i < |events.value.value| ==> AddEventToModule(events.value.value[i]).Ok?)
    ensures events.Some? && r.Ok? ==>
      r.value == Concat(MapAll(events.value.value, AddEventToModule).value)
    ensures r.Err? ==> r.error == NotDecoded
  {
    match events
    case None => Ok([])
    case Some(d) =>
      var es :- DecodeOrElse(d);
      ConcatErrors(es, AddEventToModule);
      ConcatMap(es, AddEventToModule)
  }

  /** The types of the storage entries; none when the module has no storage
      section. */
  function StoragePart(storage: Option<DecodeDifferent<StorageMetadata>>): (r: Result<seq<RuntimeType>>)
    ensures storage.None? ==> r == Ok([])
    ensures storage.Some? ==> (r.Ok? <==>
      storage.value.Decoded? && AddStorageToModule(storage.value.value).Ok?)
    ensures storage.Some? && r.Ok? ==> r.value == AddStorageToModule(storage.value.value).value
    ensures r.Err? ==> r.error == NotDecoded
  {
    match storage
    case None => Ok([])
    case Some(d) =>
      var s :- DecodeOrElse(d);
      AddStorageToModule(s)
  }

  /** A loop over decoders that fail only with `NotDecoded` fails only with
      `NotDecoded`. */
  lemma ConcatErrors<A>(xs: seq<A>, f: A -> Result<seq<RuntimeType>>)
    requires forall x :: f(x).Err? ==> f(x).error == NotDecoded
    ensures ConcatMap(xs, f).Err? ==> ConcatMap(xs, f).error == NotDecoded
  {
    if ConcatMap(xs, f).Err? {
      var k :| FirstFailure(xs, f, k) && MapAll(xs, f).error == f(xs[k]).error;
    }
  }

  /** The types of a module in the order the program gathers them: calls,
      then events, then storage. The first part that fails aborts the
      module. */
  function CollectTypes(m: ModuleMetadata): (r: Result<seq<RuntimeType>>)
    ensures r.Ok? <==> CallsPart(m.calls).Ok? && EventsPart(m.event).Ok? && StoragePart(m.storage).Ok?
    ensures r.Ok? ==>
      r.value == CallsPart(m.calls).value + EventsPart(m.event).value + StoragePart(m.storage).value
    ensures r.Err? ==> r.error == NotDecoded
  {
    var calls :- CallsPart(m.calls);
    var events :- EventsPart(m.event);
    var storage :- StoragePart(m.storage);
    Ok(calls + events + storage)
  }

  /** The associated types of a module: every named type reachable in the
      collected types, without repetition, except the four excluded names. A
      name is a dependency exactly when some collected type mentions it as a
      `Complex` leaf and it is not excluded. */
  function Dependencies(types: seq<RuntimeType>): (deps: set<string>)
    ensures forall n :: n in deps <==> n !in Excluded && exists i :: 0 <= i < |types| && Mentions(types[i], n)
  {
    var deps := (set n | n in FlattenEach(types)) - Excluded;
    MentionedNames(types);
    deps
  }

  /** A name occurs in the flattening of a list of types exactly when one of
      the types mentions it. */
  lemma MentionedNames(types: seq<RuntimeType>)
    ensures forall n :: n in FlattenEach(types) <==> exists i :: 0 <= i < |types| && Mentions(types[i], n)
  {
    forall n, i | 0 <= i < |types| ensures n in FlattenComplex(types[i]) <==> Mentions(types[i], n) {
      FlattenComplexMentions(types[i], n);
    }
  }

  /** What `add_module` contributes to the generated code: nothing for
      `System`, otherwise the CamelCase module name, the collected types and
      the associated types. */
  datatype ModuleOutcome =
    | Skipped
    | Generated(name: string, types: seq<RuntimeType>, dependencies: set<string>)

  /** `add_module`, with `heck`'s CamelCase conversion as the parameter
      `camelCase`. The module name must be decoded first, even for `System`;
      a module whose converted name is `System` is skipped whatever its
      sections hold; any failing part aborts the module. */
  function AddModule(m: ModuleMetadata, camelCase: string -> string): (r: Result<ModuleOutcome>)
    ensures m.name.Encode? ==> r == Err(NotDecoded)
    ensures m.name.Decoded? && camelCase(m.name.value) == "System" ==> r == Ok(Skipped)
    ensures m.name.Decoded? && camelCase(m.name.value) != "System" ==>
      (r.Ok? <==> CollectTypes(m).Ok?)
    ensures r.Ok? ==> (r.value.Skipped? <==> camelCase(m.name.value) == "System")
    ensures r.Ok? && r.value.Generated? ==>
      && r.value.name == camelCase(m.name.value)
      && r.value.name != "System"
      && r.value.types == CollectTypes(m).value
      && r.value.dependencies == Dependencies(CollectTypes(m).value)
    ensures r.Err? ==> r.error == NotDecoded
  {
    var name :- DecodeOrElse(m.name);
    var moduleName := camelCase(name);
    if moduleName == "System" then Ok(Skipped)
    else
      var types :- CollectTypes(m);
      Ok(Generated(moduleName, types, Dependencies(types)))
  }

  /** No excluded name is ever a dependency. */
  lemma ExcludedNeverDependencies(types: seq<RuntimeType>)
    ensures Dependencies(types) * Excluded == {}
  {
  }

  /** Removing the excluded names once more changes nothing. */
  lemma ExclusionIdempotent(types: seq<RuntimeType>)
    ensures Dependencies(types) - Excluded == Dependencies(types)
  {
  }

  /** The dependencies of two lists together are the union of their
      dependencies: the set does not depend on how the types are grouped. */
  lemma DependenciesAppend(a: seq<RuntimeType>, b: seq<RuntimeType>)
    ensures Dependencies(a + b) == Dependencies(a) + Dependencies(b)
  {
    FlattenEachAppend(a, b);
    assert (set n | n in FlattenEach(a + b)) == (set n | n in FlattenEach(a)) + (set n | n in FlattenEach(b));
  }

  /** Collecting the same types twice yields the same set: deduplication. */
  lemma DependenciesDuplicate(types: seq<RuntimeType>)
    ensures Dependencies(types + types) == Dependencies(types)
  {
    DependenciesAppend(types, types);
  }

  /** A module without calls, events or storage generates an empty trait. */
  lemma EmptyModule(name: string, camelCase: string -> string)
    requires camelCase(name) != "System"
    ensures AddModule(ModuleMetadata(Decoded(name), None, None, None), camelCase)
      == Ok(Generated(camelCase(name), [], {}))
  {
    var m := ModuleMetadata(Decoded(name), None, None, None);
    assert CollectTypes(m) == Ok([]);
    assert forall n :: n !in Dependencies([]);
    assert Dependencies([]) == {};
    assert AddModule(m, camelCase).value.Generated?;
  }
}

=== FILE: module_examples.dfy ===
/**
 A module as it appears in version-12 metadata, followed through the
 aggregation: which types it collects and which associated types remain.
 */
module ModuleExamples {
  import opened Results
  import opened Text
  import opened RuntimeTypes
  import opened Parser
  import opened GrammarRoundTrip
  import opened Decode
  import opened MetadataV12
  import opened Events
  import opened Modules

  /** A bare identifier that is not a scalar name parses to the named type
      of that name. */
  lemma ParseIdentifier(n: string)
    requires IsIdentifier(n) && n !in Primitives
    ensures FromStr(n) == Ok(Complex(n))
  {
    IdentifierShape(n);
    TrimStartMatchesNoPrefix(n, "T::");
    assert Normalize(n) == n;
    FindAbsent(n, '<');
    assert OuterLiteral(n, "<", ">") == n;
    TrimStartMatchesNoPrefix(n, "::");
  }

  /** The named types of the given names, in order. */
  function NamedTypes(names: seq<string>): (tys: seq<RuntimeType>)
    ensures |tys| == |names|
    ensures forall i :: 0 <= i < |names| ==> tys[i] == Complex(names[i])
  {
    seq(|names|, i requires 0 <= i < |names| => Complex(names[i]))
  }

  /** An event whose arguments are bare identifiers, none a scalar name,
      yields the named type of each argument. */
  lemma IdentifierEvent(name: string, args: seq<string>)
    requires forall i :: 0 <= i < |args| ==> IsIdentifier(args[i]) && args[i] !in Primitives
    ensures AddEventToModule(EventMetadata(Decoded(name), Decoded(args))) == Ok(NamedTypes(args))
  {
    forall i | 0 <= i < |args| ensures FromStr(args[i]) == Ok(NamedTypes(args)[i]) {
      ParseIdentifier(args[i]);
    }
    MapAllValues(args, FromStr, NamedTypes(args));
  }

  /** A transfer-shaped event `(account, account, balance)`, as the balances
      module declares with `AccountId` and `Balance`. */
  function TransferEvent(name: string, account: string, balance: string): EventMetadata
  {
    EventMetadata(Decoded(name), Decoded([account, account, balance]))
  }

  /** A module whose only section is one transfer-shaped event. */
  function TransferModule(name: string, event: string, account: string, balance: string): ModuleMetadata
  {
    ModuleMetadata(Decoded(name), None, None, Some(Decoded([TransferEvent(event, account, balance)])))
  }

  /** A module whose only section is its events collects exactly the
      events' types. */
  lemma EventsOnlyModule(m: ModuleMetadata, tys: seq<RuntimeType>)
    requires m.calls.None? && m.storage.None?
    requires EventsPart(m.event) == Ok(tys)
    ensures CollectTypes(m) == Ok(tys)
  {
    assert CallsPart(m.calls) == Ok([]);
    assert StoragePart(m.storage) == Ok([]);
    assert CollectTypes(m).value == [] + tys + [];
    assert [] + tys + [] == tys;
  }

  /** An events section holding a single event yields that event's types. */
  lemma SingleEventPart(e: EventMetadata)
    ensures EventsPart(Some(Decoded([e]))) == AddEventToModule(e)
  {
    ConcatMapSingle(e, AddEventToModule);
  }

  /** A module whose only section is one event with identifier arguments,
      none a scalar name, collects the named type of each argument. */
  lemma IdentifierEventModule(m: ModuleMetadata, event: string, args: seq<string>)
    requires m.calls.None? && m.storage.None?
    requires m.event == Some(Decoded([EventMetadata(Decoded(event), Decoded(args))]))
    requires forall i :: 0 <= i < |args| ==> IsIdentifier(args[i]) && args[i] !in Primitives
    ensures CollectTypes(m) == Ok(NamedTypes(args))
  {
    var e := EventMetadata(Decoded(event), Decoded(args));
    assert EventsPart(m.event) == Ok(NamedTypes(args)) by {
      IdentifierEvent(event, args);
      SingleEventPart(e);
    }
    EventsOnlyModule(m, NamedTypes(args));
  }

  /** The module collects the named types of the event's three arguments. */
  lemma TransferModuleTypes(name: string, event: string, account: string, balance: string)
    requires IsIdentifier(account) && account !in Primitives
    requires IsIdentifier(balance) && balance !in Primitives
    ensures CollectTypes(TransferModule(name, event, account, balance)) ==
      Ok([Complex(account), Complex(account), Complex(balance)])
  {
    var args := [account, account, balance];
    assert forall i :: 0 <= i < |args| ==> IsIdentifier(args[i]) && args[i] !in Primitives by {
      forall i | 0 <= i < |args| ensures IsIdentifier(args[i]) && args[i] !in Primitives {
        if i == 2 { assert args[i] == balance; } else { assert args[i] == account; }
      }
    }
    var tys := [Complex(account), Complex(account), Complex(balance)];
    assert NamedTypes(args) == tys by {
      forall i | 0 <= i < 3 ensures NamedTypes(args)[i] == tys[i] {
        if i == 2 { assert args[i] == balance; } else { assert args[i] == account; }
      }
    }
    IdentifierEventModule(TransferModule(name, event, account, balance), event, args);
  }

  /** When the account name is one the generated code provides and the
      balance name is not, the balance name is the only dependency. */
  lemma TransferDependencies(account: string, balance: string)
    requires account in Excluded && balance !in Excluded
    ensures Dependencies([Complex(account), Complex(account), Complex(balance)]) == {balance}
  {
    var tys := [Complex(account), Complex(account), Complex(balance)];
    forall n ensures n in Dependencies(tys) <==> n == balance {
      assert Mentions(tys[2], balance);
      if n in Dependencies(tys) {
        var i :| 0 <= i < |tys| && Mentions(tys[i], n);
        assert n == account || n == balance;
      }
    }
  }

  /** The balances module with its `Transfer(AccountId, AccountId, Balance)`
      event: it collects the three named argument types and keeps only
      `Balance` as an associated type, `AccountId` being excluded. */
  lemma BalancesModuleOutcome(name: string, event: string, account: string, balance: string, camelCase: string -> string)
    requires camelCase(name) != "System"
    requires IsIdentifier(account) && account !in Primitives && account in Excluded
    requires IsIdentifier(balance) && balance !in Primitives && balance !in Excluded
    ensures AddModule(TransferModule(name, event, account, balance), camelCase) ==
      Ok(Generated(camelCase(name), [Complex(account), Complex(account), Complex(balance)], {balance}))
  {
    TransferModuleTypes(name, event, account, balance);
    TransferDependencies(account, balance);
  }

  /** The system module is skipped even when its sections hold
      placeholders. */
  lemma SystemSkippedWhateverItHolds(camelCase: string -> string)
    requires camelCase("system") == "System"
    ensures AddModule(ModuleMetadata(Decoded("system"), Some(Encode), Some(Encode), Some(Encode)), camelCase) == Ok(Skipped)
  {
  }
}

=== FILE: parser.dfy ===
/**
 The `FromStr` implementation of `RuntimeType`: trims the input, strips
 leading `T::` scopes, then tries in order the scalar names, an `Option<`
 wrapper, a `Vec<` wrapper and a parenthesised tuple, and otherwise reads a
 named type with its generic arguments removed. The three substring macros
 the program defines for this are modelled as functions.
 */
module Parser {
  import opened Results
  import opened Text
  import opened RuntimeTypes

  /** `match_literal!`: the string starts with `start` and contains `stop`. */
  predicate MatchLiteral(s: string, start: string, stop: string)
  {
    StartsWith(s, start) && Contains(s, stop)
  }

  /** Where `inner_literal!` starts: just past the first `start`, or 0. */
  function InnerFrom(line: string, start: string): nat
  {
    match Find(line, start)
    case Some(i) => i + |start|
    case None => 0
  }

  /** Where `inner_literal!` stops: at the last `stop`, or the end. */
  function InnerTo(line: string, stop: string): (k: nat)
    ensures k <= |line|
  {
    match RFind(line, stop)
    case Some(i) => i
    case None => |line|
  }

  /** `inner_literal!`: the text between the first `start` and the last
      `stop`. The program slices without checking, so the slice bounds must
      be in order. */
  function InnerLiteral(line: string, start: string, stop: string): (r: string)
    requires InnerFrom(line, start) <= InnerTo(line, stop)
    ensures |r| == InnerTo(line, stop) - InnerFrom(line, start)
  {
    line[InnerFrom(line, start)..InnerTo(line, stop)]
  }

  /** `outer_literal!`: removes everything from the first `start` through the
      last `stop` when both occur. The two halves are taken independently, so
      a `stop` before the `start` duplicates the text between them. */
  function OuterLiteral(line: string, start: string, stop: string): string
  {
    match (Find(line, start), RFind(line, stop))
    case (Some(a), Some(b)) =>
      line[..a] + (if b + 1 <= |line| then line[b + 1..] else "")
    case _ => line
  }

  /** When `s` starts with `start` and holds a one-character `stop` that does
      not occur in `start`, `inner_literal!` begins right after the `start`
      prefix and ends at the last `stop`, which lies beyond the prefix. */
  lemma WrapperInterior(s: string, start: string, stop: string)
    requires MatchLiteral(s, start, stop)
    requires |stop| == 1 && stop[0] !in start
    ensures InnerFrom(s, start) == |start|
    ensures RFind(s, stop).Some? && InnerTo(s, stop) == RFind(s, stop).value
    ensures |start| <= InnerTo(s, stop) < |s|
  {
    assert OccursAt(s, start, 0) by {
      assert s[0..|start|] == s[..|start|];
    }
    var k := Find(s, stop).value;
    assert OccursAt(s, stop, k);
    var last := RFind(s, stop).value;
    assert s[last] == s[last..last + 1][0];
  }

  /** None of the grammar's closing characters occurs in its opening
      patterns. */
  lemma ClosersAbsent()
    ensures |">"| == 1 && ">"[0] !in "Option<" && ">"[0] !in "Vec<"
    ensures |")"| == 1 && ")"[0] !in "("
  {
  }

  /** The input after `trim()` and `trim_start_matches("T::")`. */
  function Normalize(s: string): (r: string)
    ensures |r| <= |s|
    ensures !StartsWith(r, "T::")
  {
    TrimStartMatches(Trim(s), "T::")
  }

  /** `RuntimeType::from_str`. Every recursive call is on a strictly shorter
      substring, and no branch yields an error: the parser is total. */
  function FromStr(s: string): (r: Result<RuntimeType>)
    ensures r.Ok?
    decreases |s|, 2, 0
  {
    var n := Normalize(s);
    if n in Primitives then Ok(Primitive(n))
    else ParseCompound(n, |s|)
  }

  /** A `Primitive` comes out exactly when the normalised input is one of
      the scalar names, and then carries that name. */
  lemma ParsePrimitive(s: string)
    ensures FromStr(s).value.Primitive? <==> Normalize(s) in Primitives
    ensures FromStr(s).value.Primitive? ==> FromStr(s).value.name == Normalize(s)
  {
  }

  /** The branches of `from_str` after the scalar names, on a normalised
      string `n` no longer than `bound`. */
  function ParseCompound(n: string, bound: nat): (r: Result<RuntimeType>)
    requires |n| <= bound
    ensures r.Ok? && !r.value.Primitive?
    decreases bound, 1, 0
  {
    ClosersAbsent();
    if MatchLiteral(n, "Option<", ">") then
      WrapperInterior(n, "Option<", ">");
      match FromStr(InnerLiteral(n, "Option<", ">"))
      case Err(e) => Err(e)
      case Ok(inner) => Ok(RuntimeType.Option(inner))
    else if MatchLiteral(n, "Vec<", ">") then
      WrapperInterior(n, "Vec<", ">");
      match FromStr(InnerLiteral(n, "Vec<", ">"))
      case Err(e) => Err(e)
      case Ok(inner) => Ok(Vec(inner))
    else if MatchLiteral(n, "(", ")") then
      WrapperInterior(n, "(", ")");
      match ParseEach(Split(InnerLiteral(n, "(", ")"), ','), |n|)
      case Err(e) => Err(e)
      case Ok(elements) => Ok(Tuple(elements))
    else
      Ok(Complex(TrimStartMatches(OuterLiteral(n, "<", ">"), "::")))
  }

  /** `pieces.map(from_str).collect::<Result<Vec<_>>>()` for the pieces of a
      tuple interior; `bound` exceeds every piece's length. Since no piece
      fails, the collection never stops early. */
  function ParseEach(pieces: seq<string>, bound: nat): (r: Result<seq<RuntimeType>>)
    requires forall i :: 0 <= i < |pieces| ==> |pieces[i]| < bound
    ensures r.Ok?
    decreases bound, 0, |pieces|
  {
    if |pieces| == 0 then Ok([])
    else
      match FromStr(pieces[0])
      case Err(e) => Err(e)
      case Ok(head) =>
        match ParseEach(pieces[1..], bound)
        case Err(e) => Err(e)
        case Ok(tail) => Ok([head] + tail)
  }

  /** The collection holds one parse per piece, in piece order. */
  lemma {:induction false} ParseEachParses(pieces: seq<string>, bound: nat)
    requires forall i :: 0 <= i < |pieces| ==> |pieces[i]| < bound
    ensures |ParseEach(pieces, bound).value| == |pieces|
    ensures forall i :: 0 <= i < |pieces| ==>
      ParseEach(pieces, bound).value[i] == FromStr(pieces[i]).value
    decreases |pieces|
  {
    if |pieces| > 0 {
      ParseEachParses(pieces[1..], bound);
    }
  }
}

/** What each branch of `from_str` does, stated on the normalised input. */
module ParserBranches {
  import opened Results
  import opened Text
  import opened RuntimeTypes
  import opened Parser

  /** An input that normalises to `Option<…>` with a `>` somewhere parses
      the text between the prefix and the last `>` and wraps it. */
  lemma ParseOptionBranch(s: string)
    requires Normalize(s) !in Primitives
    requires MatchLiteral(Normalize(s), "Option<", ">")
    ensures RFind(Normalize(s), ">").Some?
    ensures 7 <= RFind(Normalize(s), ">").value
    ensures FromStr(s) ==
      Ok(Option(FromStr(Normalize(s)[7..RFind(Normalize(s), ">").value]).value))
  {
    ClosersAbsent();
    WrapperInterior(Normalize(s), "Option<", ">");
  }

  /** An input that normalises to `Vec<…>` (and not `Option<…>`) with a `>`
      somewhere parses the text between the prefix and the last `>` and
      wraps it. */
  lemma ParseVecBranch(s: string)
    requires Normalize(s) !in Primitives
    requires !MatchLiteral(Normalize(s), "Option<", ">")
    requires MatchLiteral(Normalize(s), "Vec<", ">")
    ensures RFind(Normalize(s), ">").Some?
    ensures 4 <= RFind(Normalize(s), ">").value
    ensures FromStr(s) ==
      Ok(Vec(FromStr(Normalize(s)[4..RFind(Normalize(s), ">").value]).value))
  {
    ClosersAbsent();
    WrapperInterior(Normalize(s), "Vec<", ">");
  }

  /** An input that normalises to `(…)` parses the text between the first
      `(` and the last `)`, split on every comma: one element per piece, so
      one more element than there are commas. */
  lemma ParseTupleBranch(s: string)
    requires Normalize(s) !in Primitives
    requires !MatchLiteral(Normalize(s), "Option<", ">")
    requires !MatchLiteral(Normalize(s), "Vec<", ">")
    requires MatchLiteral(Normalize(s), "(", ")")
    ensures RFind(Normalize(s), ")").Some?
    ensures 1 <= RFind(Normalize(s), ")").value
    ensures var interior := Normalize(s)[1..RFind(Normalize(s), ")").value];
      && FromStr(s).value.Tuple?
      && |FromStr(s).value.elements| == multiset(interior)[','] + 1
      && |Split(interior, ',')| == |FromStr(s).value.elements|
      && forall i :: 0 <= i < |Split(interior, ',')| ==>
           FromStr(s).value.elements[i] == FromStr(Split(interior, ',')[i]).value
  {
    var n := Normalize(s);
    ClosersAbsent();
    WrapperInterior(n, "(", ")");
    SplitCount(n[1..RFind(n, ")").value], ',');
    ParseEachParses(Split(n[1..RFind(n, ")").value], ','), |n|);
  }

  /** Any other input is a named type: the span from the first `<` to the
      last `>` is cut out and leading `::` separators are stripped. */
  lemma ParseNamedBranch(s: string)
    requires Normalize(s) !in Primitives
    requires !MatchLiteral(Normalize(s), "Option<", ">")
    requires !MatchLiteral(Normalize(s), "Vec<", ">")
    requires !MatchLiteral(Normalize(s), "(", ")")
    ensures FromStr(s).value.Complex?
    ensures !StartsWith(FromStr(s).value.name, "::")
    ensures !Contains(Normalize(s), "<") || !Contains(Normalize(s), ">") ==>
      FromStr(s).value.name == TrimStartMatches(Normalize(s), "::")
    ensures Contains(Normalize(s), "<") && RFind(Normalize(s), ">").Some? ==>
      var n := Normalize(s);
      var open := Find(n, "<").value;
      var close := RFind(n, ">").value;
      FromStr(s).value.name == TrimStartMatches(n[..open] + n[close + 1..], "::")
  {
    var n := Normalize(s);
    var name := TrimStartMatches(OuterLiteral(n, "<", ">"), "::");
    assert FromStr(s) == Ok(Complex(name)) by {
      NamedBranchValue(s);
    }
    assert !StartsWith(name, "::");
    OuterLiteralCut(n);
  }

  /** The fallback branch itself: the named type of what `outer_literal!`
      leaves, with leading `::` separators stripped. */
  lemma NamedBranchValue(s: string)
    requires Normalize(s) !in Primitives
    requires !MatchLiteral(Normalize(s), "Option<", ">")
    requires !MatchLiteral(Normalize(s), "Vec<", ">")
    requires !MatchLiteral(Normalize(s), "(", ")")
    ensures FromStr(s) == Ok(Complex(TrimStartMatches(OuterLiteral(Normalize(s), "<", ">"), "::")))
  {
  }

  /** `outer_literal!(line, "<", ">")` leaves a line without both brackets
      alone, and otherwise keeps what precedes the first `<` and follows the
      last `>`. */
  lemma OuterLiteralCut(line: string)
    ensures !Contains(line, "<") || !Contains(line, ">") ==>
      OuterLiteral(line, "<", ">") == line
    ensures Contains(line, "<") && RFind(line, ">").Some? ==>
      var open := Find(line, "<").value;
      var close := RFind(line, ">").value;
      OuterLiteral(line, "<", ">") == line[..open] + line[close + 1..]
  {
    if Contains(line, ">") {
      var k := Find(line, ">").value;
      assert OccursAt(line, ">", k);
    }
  }
}

=== FILE: results.dfy ===
/**
 Outcomes of the decoders, in place of the program's `color_eyre::Result`:
 a value or one of the two errors the program reports. Also the two ways the
 program gathers a list of fallible results: `collect` into a
 `Result<Vec<_>>` (MapAll), and a loop that `extend`s an accumulator and
 returns at the first error (ConcatMap).
 */
module Results {

  /** The two failure messages the program can produce. */
  datatype Error =
    | NotDecoded          // "Metadata should be Decoded"
    | UnsupportedVersion  // "Unsupported metadata version"

  /** Rust's `Option`, used for optional schema fields and for `find`/`rfind`. */
  datatype Option<+T> = None | Some(value: T)

  /** An outcome of a fallible step; usable with `:-` like Rust's `?`. */
  datatype Result<+T> = Ok(value: T) | Err(error: Error) {

    predicate IsFailure() {
      Err?
    }

    function PropagateFailure<U>(): Result<U>
      requires Err?
    {
      Err(error)
    }

    function Extract(): T
      requires Ok?
    {
      value
    }
  }

  /** `i` is the first index at which `f` fails; everything before it succeeds. */
  ghost predicate FirstFailure<A, B>(xs: seq<A>, f: A -> Result<B>, i: int)
  {
    && 0 <= i < |xs|
    && f(xs[i]).Err?
    && forall j :: 0 <= j < i ==> f(xs[j]).Ok?
  }

  /** `xs.into_iter().map(f).collect::<Result<Vec<_>>>()`: all values in order,
      or the error of the first element that fails. */
  function MapAll<A, B>(xs: seq<A>, f: A -> Result<B>): (r: Result<seq<B>>)
    ensures r.Ok? <==> forall i :: 0 <= i < |xs| ==> f(xs[i]).Ok?
    ensures r.Ok? ==> |r.value| == |xs|
    ensures r.Ok? ==> forall i :: 0 <= i < |xs| ==> r.value[i] == f(xs[i]).value
    ensures r.Err? ==> exists i :: FirstFailure(xs, f, i) && r.error == f(xs[i]).error
  {
    if |xs| == 0 then Ok([])
    else
      var head :- f(xs[0]);
      var tail := MapAll(xs[1..], f);
      if tail.Err? then
        assert exists i :: FirstFailure(xs, f, i) && tail.error == f(xs[i]).error by {
          var k :| FirstFailure(xs[1..], f, k) && tail.error == f(xs[1..][k]).error;
          assert FirstFailure(xs, f, k + 1);
        }
        Err(tail.error)
      else
        Ok([head] + tail.value)
  }

  /** When every element maps to a known value, collecting gives exactly
      those values. */
  lemma MapAllValues<A, B>(xs: seq<A>, f: A -> Result<B>, ys: seq<B>)
    requires |xs| == |ys|
    requires forall i :: 0 <= i < |xs| ==> f(xs[i]) == Ok(ys[i])
    ensures MapAll(xs, f) == Ok(ys)
  {
    var r := MapAll(xs, f);
    assert r.Ok?;
    assert r.value == ys;
  }

  /** At most one index is the first failure, so collecting reports the
      error of that index. */
  lemma MapAllFailure<A, B>(xs: seq<A>, f: A -> Result<B>, i: int)
    requires FirstFailure(xs, f, i)
    ensures MapAll(xs, f) == Err(f(xs[i]).error)
  {
  }

  /** Flattening of a sequence of sequences, in order. */
  function Concat<T(!new)>(ss: seq<seq<T>>): (r: seq<T>)
    ensures forall x :: x in r <==> exists i :: 0 <= i < |ss| && x in ss[i]
  {
    if |ss| == 0 then []
    else
      var r := ss[0] + Concat(ss[1..]);
      assert forall x :: x in r ==> exists i :: 0 <= i < |ss| && x in ss[i] by {
        forall x | x in r ensures exists i :: 0 <= i < |ss| && x in ss[i] {
          if x !in ss[0] {
            var k :| 0 <= k < |ss[1..]| && x in ss[1..][k];
            assert x in ss[k + 1];
          }
        }
      }
      assert forall x :: (exists i :: 0 <= i < |ss| && x in ss[i]) ==> x in r by {
        forall x | exists i :: 0 <= i < |ss| && x in ss[i] ensures x in r {
          var i :| 0 <= i < |ss| && x in ss[i];
          if i > 0 {
            assert x in ss[1..][i - 1];
          }
        }
      }
      r
  }

  /** The loop `for x in xs { acc.extend(f(x)?) }` starting from an empty
      accumulator: it agrees with collecting every result first and then
      concatenating, including on which error it reports. */
  function ConcatMap<A, B(!new)>(xs: seq<A>, f: A -> Result<seq<B>>): (r: Result<seq<B>>)
    ensures r.Ok? <==> MapAll(xs, f).Ok?
    ensures r.Ok? ==> r.value == Concat(MapAll(xs, f).value)
    ensures r.Err? ==> r.error == MapAll(xs, f).error
  {
    if |xs| == 0 then Ok([])
    else
      var head :- f(xs[0]);
      var tail :- ConcatMap(xs[1..], f);
      assert MapAll(xs, f).value == [head] + MapAll(xs[1..], f).value;
      assert ([head] + MapAll(xs[1..], f).value)[1..] == MapAll(xs[1..], f).value;
      Ok(head + tail)
  }

  /** The loop over a single element yields that element's result. */
  lemma ConcatMapSingle<A, B(!new)>(x: A, f: A -> Result<seq<B>>)
    ensures ConcatMap([x], f) == f(x)
  {
    assert [x][1..] == [];
    if f(x).Ok? {
      assert f(x).value + [] == f(x).value;
    }
  }
}

=== FILE: round_trip.dfy ===
/**
 Parsing a rendered type gives the type back, for the types the grammar can
 express faithfully: scalar names from the closed set, `Complex` names that
 are plain identifiers and not scalar names, non-empty tuples, and no comma
 inside a tuple element (the tuple interior is split on every comma).
 */
module GrammarRoundTrip {
  import opened Results
  import opened Text
  import opened RuntimeTypes
  import opened Parser
  import opened ParserBranches

  predicate IsIdentChar(c: char)
  {
    'a' <= c <= 'z' || 'A' <= c <= 'Z' || '0' <= c <= '9' || c == '_'
  }

  /** A non-empty run of letters, digits and underscores. */
  predicate IsIdentifier(n: string)
  {
    |n| > 0 && forall i :: 0 <= i < |n| ==> IsIdentChar(n[i])
  }

  /** The types whose rendering parses back to themselves. */
  predicate WellFormed(t: RuntimeType)
    decreases t
  {
    match t
    case Primitive(n) => n in Primitives
    case Complex(n) => IsIdentifier(n) && n !in Primitives
    case Option(u) => WellFormed(u)
    case Vec(u) => WellFormed(u)
    case Tuple(ts) =>
      && |ts| > 0
      && forall i :: 0 <= i < |ts| ==> WellFormed(ts[i]) && CommaFree(ts[i])
  }

  /** Every scalar name is an identifier starting with `b`, `i` or `u`. */
  lemma PrimitiveNames(n: string)
    requires n in Primitives
    ensures IsIdentifier(n)
    ensures n[0] == 'b' || n[0] == 'i' || n[0] == 'u'
  {
  }

  /** An identifier is left alone by `trim` and holds none of the characters
      the grammar gives a meaning to. */
  lemma IdentifierShape(n: string)
    requires IsIdentifier(n)
    ensures Trim(n) == n
    ensures !StartsWith(n, "T::") && !StartsWith(n, "::")
    ensures !StartsWith(n, "Option<") && !StartsWith(n, "Vec<") && !StartsWith(n, "(")
    ensures '<' !in n
  {
    assert IsIdentChar(n[0]);
    assert Trim(n) == n by {
      assert IsIdentChar(n[|n| - 1]);
      assert !IsWhitespace(n[0]) && !IsWhitespace(n[|n| - 1]);
    }
    assert !StartsWith(n, "T::") by {
      if |n| >= 2 {
        assert IsIdentChar(n[1]);
      }
    }
    assert !StartsWith(n, "Vec<") by {
      if |n| >= 4 {
        assert IsIdentChar(n[3]);
      }
    }
    assert !StartsWith(n, "Option<") by {
      if |n| >= 7 {
        assert IsIdentChar(n[6]);
      }
    }
  }

  /** A string that starts with one of the grammar's opening symbols and ends
      with a closing one is left alone by normalisation and is no scalar
      name. */
  lemma NormalizeBracketed(r: string)
    requires |r| > 0
    requires r[0] == 'O' || r[0] == 'V' || r[0] == '('
    requires r[|r| - 1] == '>' || r[|r| - 1] == ')'
    ensures Normalize(r) == r
    ensures r !in Primitives
  {
    BracketedNotPrimitive(r);
    assert !IsWhitespace(r[0]) && !IsWhitespace(r[|r| - 1]);
    var t := Trim(r);
    assert t == r;
    assert !StartsWith(r, "T::") by {
      assert r[0] != 'T';
    }
    TrimStartMatchesNoPrefix(r, "T::");
  }

  /** No scalar name starts with a bracket or a wrapper's initial. */
  lemma BracketedNotPrimitive(r: string)
    requires |r| > 0
    requires r[0] == 'O' || r[0] == 'V' || r[0] == '('
    ensures r !in Primitives
  {
    if r in Primitives {
      PrimitiveNames(r);
    }
  }

  /** `parse(render(t)) == t` for a scalar name. */
  lemma RoundTripPrimitive(n: string)
    requires n in Primitives
    ensures FromStr(Render(Primitive(n))) == Ok(Primitive(n))
  {
    PrimitiveNames(n);
    IdentifierShape(n);
    assert Normalize(n) == n;
  }

  /** `parse(render(t)) == t` for a named type. */
  lemma RoundTripComplex(n: string)
    requires IsIdentifier(n) && n !in Primitives
    ensures FromStr(Render(Complex(n))) == Ok(Complex(n))
  {
    ComplexRenderShape(n);
    NamedBranchValue(Render(Complex(n)));
  }

  /** A rendered named type normalises back to its name, which takes the
      parser's named-type branch and survives it unchanged. */
  lemma ComplexRenderShape(n: string)
    requires IsIdentifier(n) && n !in Primitives
    ensures Normalize(Render(Complex(n))) == n
    ensures !MatchLiteral(n, "Option<", ">") && !MatchLiteral(n, "Vec<", ">") && !MatchLiteral(n, "(", ")")
    ensures TrimStartMatches(OuterLiteral(n, "<", ">"), "::") == n
  {
    var r := Render(Complex(n));
    assert r == "T::" + n;
    assert Trim(r) == r by {
      assert IsIdentChar(n[|n| - 1]) && r[|r| - 1] == n[|n| - 1];
      assert !IsWhitespace(r[0]) && !IsWhitespace(r[|r| - 1]);
    }
    IdentifierShape(n);
    assert Normalize(r) == n by {
      TrimStartMatchesStep(n, "T::");
    }
    assert TrimStartMatches(OuterLiteral(n, "<", ">"), "::") == n by {
      FindAbsent(n, '<');
      TrimStartMatchesNoPrefix(n, "::");
    }
  }

  /** `parse(render(t)) == t` for an `Option`, given it for the inner type. */
  lemma RoundTripOption(u: RuntimeType)
    requires FromStr(Render(u)) == Ok(u)
    ensures FromStr(Render(Option(u))) == Ok(Option(u))
  {
    var r := Render(Option(u));
    assert r == "Option<" + Render(u) + ">";
    NormalizeBracketed(r);
    assert StartsWith(r, "Option<");
    RFindFinal(r, '>');
    ParseOptionBranch(r);
    assert r[7..|r| - 1] == Render(u);
  }

  /** `parse(render(t)) == t` for a `Vec`, given it for the inner type. */
  lemma RoundTripVec(u: RuntimeType)
    requires FromStr(Render(u)) == Ok(u)
    ensures FromStr(Render(Vec(u))) == Ok(Vec(u))
  {
    var r := Render(Vec(u));
    assert r == "Vec<" + Render(u) + ">";
    NormalizeBracketed(r);
    assert StartsWith(r, "Vec<");
    assert !StartsWith(r, "Option<") by {
      assert r[0] != 'O';
    }
    RFindFinal(r, '>');
    ParseVecBranch(r);
    assert r[4..|r| - 1] == Render(u);
  }

  /** A rendered tuple takes the tuple branch of the parser, and its
      interior is the comma-joined rendering of the elements. */
  lemma TupleRenderShape(ts: seq<RuntimeType>)
    ensures var r := Render(Tuple(ts));
      && Normalize(r) == r
      && r !in Primitives
      && !MatchLiteral(r, "Option<", ">")
      && !MatchLiteral(r, "Vec<", ">")
      && MatchLiteral(r, "(", ")")
      && RFind(r, ")") == Some(|r| - 1)
      && r[1..|r| - 1] == Join(RenderEach(ts), ',')
  {
    var r := Render(Tuple(ts));
    assert r == "(" + Join(RenderEach(ts), ',') + ")";
    NormalizeBracketed(r);
    assert StartsWith(r, "(");
    assert !StartsWith(r, "Option<") && !StartsWith(r, "Vec<") by {
      assert r[0] != 'O' && r[0] != 'V';
    }
    RFindFinal(r, ')');
  }

  /** `parse(render(t)) == t` for a non-empty tuple of comma-free elements,
      given it for every element. */
  lemma RoundTripTuple(ts: seq<RuntimeType>)
    requires |ts| > 0
    requires forall i :: 0 <= i < |ts| ==> CommaFree(ts[i]) && FromStr(Render(ts[i])) == Ok(ts[i])
    ensures FromStr(Render(Tuple(ts))) == Ok(Tuple(ts))
  {
    var r := Render(Tuple(ts));
    var parts := RenderEach(ts);
    assert Split(Join(parts, ','), ',') == parts by {
      forall i | 0 <= i < |parts| ensures ',' !in parts[i] {
        CommaFreeRender(ts[i]);
      }
      SplitJoin(parts, ',');
    }
    TupleRenderShape(ts);
    var v := FromStr(r).value;
    assert v.Tuple? && |v.elements| == |parts|
      && forall i :: 0 <= i < |parts| ==> v.elements[i] == FromStr(parts[i]).value
    by {
      ParseTupleBranch(r);
      assert Split(r[1..|r| - 1], ',') == parts;
    }
    assert forall i :: 0 <= i < |ts| ==> FromStr(parts[i]) == Ok(ts[i]);
    ElementsRecovered(v, ts, parts, FromStr);
  }

  /** A tuple whose elements are the parses of the pieces, each piece
      parsing to the matching type, is the tuple of those types. */
  lemma ElementsRecovered(v: RuntimeType, ts: seq<RuntimeType>, parts: seq<string>,
                          parse: string -> Result<RuntimeType>)
    requires v.Tuple? && |v.elements| == |parts| && |parts| == |ts|
    requires forall i :: 0 <= i < |ts| ==> parse(parts[i]) == Ok(ts[i])
    requires forall i :: 0 <= i < |parts| ==> v.elements[i] == parse(parts[i]).value
    ensures v == Tuple(ts)
  {
    assert v.elements == ts;
  }

  /** `parse(render(t)) == t` for every well-formed type. */
  lemma {:induction false} RoundTrip(t: RuntimeType)
    requires WellFormed(t)
    ensures FromStr(Render(t)) == Ok(t)
    decreases t
  {
    match t
    case Primitive(n) => RoundTripPrimitive(n);
    case Complex(n) => RoundTripComplex(n);
    case Option(u) =>
      RoundTrip(u);
      RoundTripOption(u);
    case Vec(u) =>
      RoundTrip(u);
      RoundTripVec(u);
    case Tuple(ts) =>
      forall i | 0 <= i < |ts| ensures FromStr(Render(ts[i])) == Ok(ts[i]) {
        RoundTrip(ts[i]);
      }
      RoundTripTuple(ts);
  }
}

=== FILE: runtime_type.dfy ===
/**
 The `RuntimeType` algebra: the type expressions found in runtime metadata,
 their canonical rendering (`Display`) and the collection of the named types
 they reference (`flatten_complex`).
 */
module RuntimeTypes {
  import opened Text

  /** A type expression. `Complex` names a type resolved elsewhere (a module's
      associated type); every other name is a built-in scalar. */
  datatype RuntimeType =
    | Primitive(name: string)
    | Complex(name: string)
    | Option(inner: RuntimeType)
    | Vec(inner: RuntimeType)
    | Tuple(elements: seq<RuntimeType>)

  /** The thirteen scalar names the parser recognises. */
  const Primitives: set<string> :=
    {"bool", "usize", "u8", "u16", "u32", "u64", "u128",
     "isize", "i8", "i16", "i32", "i64", "i128"}

  /** The names of all `Complex` leaves of `t`, left to right, with
      repetitions. */
  function FlattenComplex(t: RuntimeType): seq<string>
    decreases t
  {
    match t
    case Primitive(_) => []
    case Complex(n) => [n]
    case Option(u) => FlattenComplex(u)
    case Vec(u) => FlattenComplex(u)
    case Tuple(ts) => FlattenEach(ts)
  }

  /** `ts.iter().flat_map(flatten_complex)`: the flattenings of the elements,
      concatenated in order. */
  function FlattenEach(ts: seq<RuntimeType>): (names: seq<string>)
    ensures forall n :: n in names <==> exists i :: 0 <= i < |ts| && n in FlattenComplex(ts[i])
    decreases ts
  {
    if |ts| == 0 then []
    else
      var names := FlattenComplex(ts[0]) + FlattenEach(ts[1..]);
      assert forall i :: 1 <= i < |ts| ==> ts[i] == ts[1..][i - 1];
      names
  }

  /** `Complex(n)` is a node of `t`: the independent, tree-shaped description
      of what `FlattenComplex` collects. */
  ghost predicate Mentions(t: RuntimeType, n: string)
    decreases t
  {
    match t
    case Primitive(_) => false
    case Complex(m) => m == n
    case Option(u) => Mentions(u, n)
    case Vec(u) => Mentions(u, n)
    case Tuple(ts) => exists i :: 0 <= i < |ts| && Mentions(ts[i], n)
  }

  /** Every collected name is a `Complex` leaf of the type, and every
      `Complex` leaf is collected. */
  lemma {:induction false} FlattenComplexMentions(t: RuntimeType, n: string)
    ensures n in FlattenComplex(t) <==> Mentions(t, n)
    decreases t
  {
    match t
    case Primitive(_) =>
    case Complex(_) =>
    case Option(u) => FlattenComplexMentions(u, n);
    case Vec(u) => FlattenComplexMentions(u, n);
    case Tuple(ts) =>
      forall i | 0 <= i < |ts| ensures n in FlattenComplex(ts[i]) <==> Mentions(ts[i], n) {
        FlattenComplexMentions(ts[i], n);
      }
  }

  /** Flattening distributes over concatenation of element lists. */
  lemma {:induction false} FlattenEachAppend(a: seq<RuntimeType>, b: seq<RuntimeType>)
    ensures FlattenEach(a + b) == FlattenEach(a) + FlattenEach(b)
    decreases |a|
  {
    if |a| == 0 {
      assert a + b == b;
    } else {
      assert (a + b)[1..] == a[1..] + b;
      FlattenEachAppend(a[1..], b);
    }
  }

  /** The `Display` rendering of a type expression. */
  function Render(t: RuntimeType): string
    decreases t
  {
    match t
    case Primitive(n) => n
    case Complex(n) => "T::" + n
    case Option(u) => "Option<" + Render(u) + ">"
    case Vec(u) => "Vec<" + Render(u) + ">"
    case Tuple(ts) => "(" + Join(RenderEach(ts), ',') + ")"
  }

  /** The renderings of the elements of a tuple, in order. */
  function RenderEach(ts: seq<RuntimeType>): (parts: seq<string>)
    ensures |parts| == |ts|
    ensures forall i :: 0 <= i < |ts| ==> parts[i] == Render(ts[i])
    decreases ts
  {
    if |ts| == 0 then []
    else [Render(ts[0])] + RenderEach(ts[1..])
  }

  /** No tuple of two or more elements occurs anywhere in `t`, and no name
      holds a comma: exactly the types whose rendering has no comma. */
  predicate CommaFree(t: RuntimeType)
    decreases t
  {
    match t
    case Primitive(n) => ',' !in n
    case Complex(n) => ',' !in n
    case Option(u) => CommaFree(u)
    case Vec(u) => CommaFree(u)
    case Tuple(ts) => |ts| <= 1 && forall i :: 0 <= i < |ts| ==> CommaFree(ts[i])
  }

  /** A rendering contains a comma exactly when the type holds a tuple of
      two or more elements or a name with a comma in it. */
  lemma {:induction false} CommaFreeRender(t: RuntimeType)
    ensures CommaFree(t) <==> ',' !in Render(t)
    decreases t
  {
    match t
    case Primitive(_) =>
    case Complex(n) =>
      assert Render(t) == "T::" + n;
    case Option(u) =>
      CommaFreeRender(u);
      assert Render(t) == "Option<" + Render(u) + ">";
    case Vec(u) =>
      CommaFreeRender(u);
      assert Render(t) == "Vec<" + Render(u) + ">";
    case Tuple(ts) =>
      var inner := Join(RenderEach(ts), ',');
      assert Render(t) == "(" + inner + ")";
      assert ',' in Render(t) <==> ',' in inner;
      if |ts| == 0 {
      } else if |ts| == 1 {
        CommaFreeRender(ts[0]);
      } else {
        assert inner == Render(ts[0]) + [','] + Join(RenderEach(ts)[1..], ',');
        assert inner[|Render(ts[0])|] == ',';
      }
  }
}

=== FILE: store.dfy ===
/**
 The type list a module's storage contributes: for every entry, in entry
 order, the parsed value type followed by the parsed key types.
 */
module Storage {
  import opened Results
  import opened RuntimeTypes
  import opened Parser
  import opened Decode
  import opened MetadataV12

  /** The name of the metadata accessor for an entry's shape: `plain` for a
      plain value, `map` for a map and `double_map` for a double map. */
  function AccessorName(ty: StorageEntryType): (name: string)
    ensures name in {"plain", "map", "double_map"}
    ensures name == "plain" <==> ty.Plain?
    ensures name == "map" <==> ty.Map?
    ensures name == "double_map" <==> ty.DoubleMap?
  {
    match ty
    case Plain(_) => "plain"
    case Map(_, _, _, _) => "map"
    case DoubleMap(_, _, _, _, _) => "double_map"
  }

  /** Two entries get the same accessor exactly when they have the same
      shape. */
  lemma AccessorDistinguishesShapes(a: StorageEntryType, b: StorageEntryType)
    ensures AccessorName(a) == AccessorName(b) <==>
      (a.Plain? && b.Plain?) || (a.Map? && b.Map?) || (a.DoubleMap? && b.DoubleMap?)
  {
  }

  /** The type strings of an entry in the order the program parses them:
      the value, then the first key, then the second key. */
  function TypeStrings(ty: StorageEntryType): (strs: seq<DecodeDifferent<string>>)
    ensures |strs| == (match ty case Plain(_) => 1 case Map(_, _, _, _) => 2 case DoubleMap(_, _, _, _, _) => 3)
    ensures strs[0] == ty.value
  {
    match ty
    case Plain(v) => [v]
    case Map(_, k, v, _) => [v, k]
    case DoubleMap(_, k1, k2, v, _) => [v, k1, k2]
  }

  /** Every type string of an entry is decoded. */
  predicate TypesDecoded(ty: StorageEntryType)
  {
    forall i :: 0 <= i < |TypeStrings(ty)| ==> TypeStrings(ty)[i].Decoded?
  }

  /** The entry shape destructured into optional first key, optional second
      key and value. */
  datatype EntryParts = EntryParts(
    key1: Option<DecodeDifferent<string>>,
    key2: Option<DecodeDifferent<string>>,
    value: DecodeDifferent<string>)

  /** The destructuring `match` on the entry shape. The key strings present
      are the entry's keys in order, and a second key comes only with a
      first. */
  function EntryTypeParts(ty: StorageEntryType): (p: EntryParts)
    ensures p.value == TypeStrings(ty)[0]
    ensures p.key1.Some? <==> !ty.Plain?
    ensures p.key2.Some? <==> ty.DoubleMap?
    ensures p.key1.Some? ==> p.key1.value == TypeStrings(ty)[1]
    ensures p.key2.Some? ==> p.key2.value == TypeStrings(ty)[2]
  {
    match ty
    case Plain(v) => EntryParts(None, None, v)
    case Map(_, k, v, _) => EntryParts(Some(k), None, v)
    case DoubleMap(_, k1, k2, v, _) => EntryParts(Some(k1), Some(k2), v)
  }

  /** An optional element as a list of zero or one elements. */
  function Present<T>(o: Option<T>): (xs: seq<T>)
    ensures |xs| <= 1
  {
    match o
    case None => []
    case Some(x) => [x]
  }

  /** `parse_storage_ty`: decodes a type string and parses it. */
  function ParseStorageType(ty: DecodeDifferent<string>): (r: Result<RuntimeType>)
    ensures r.Ok? <==> ty.Decoded?
    ensures r.Ok? ==> r.value == FromStr(ty.value).value
    ensures r.Err? ==> r.error == NotDecoded
  {
    var s :- DecodeOrElse(ty);
    match FromStr(s)
    case Err(e) => Err(e)
    case Ok(t) => Ok(t)
  }

  /** Parses a key type string when there is one. */
  function ParseKey(k: Option<DecodeDifferent<string>>): (r: Result<Option<RuntimeType>>)
    ensures r.Ok? <==> (k.Some? ==> k.value.Decoded?)
    ensures r.Ok? ==> (r.value.Some? <==> k.Some?)
    ensures r.Ok? && k.Some? ==> ParseStorageType(k.value) == Ok(r.value.value)
    ensures r.Err? ==> r.error == NotDecoded
  {
    match k
    case None => Ok(None)
    case Some(s) =>
      var t :- ParseStorageType(s);
      Ok(Some(t))
  }

  /** How many keys the generated storage accessor takes, and of which
      types. */
  datatype KeyForm = NoKey | SingleKey(key: RuntimeType) | KeyPair(key1: RuntimeType, key2: RuntimeType)

  /** The key types of a key form, in order. */
  function KeyTypes(f: KeyForm): seq<RuntimeType>
  {
    match f
    case NoKey => []
    case SingleKey(k) => [k]
    case KeyPair(k1, k2) => [k1, k2]
  }

  /** The `match` on the two optional key types. Two keys give the pair
      form, a single key in either position the single form, none the empty
      form; in every case the form holds exactly the keys present, in
      order. */
  function ClassifyKeys(k1: Option<RuntimeType>, k2: Option<RuntimeType>): (f: KeyForm)
    ensures KeyTypes(f) == Present(k1) + Present(k2)
  {
    match (k1, k2)
    case (Some(a), Some(b)) => KeyPair(a, b)
    case (Some(a), None) => SingleKey(a)
    case (None, Some(b)) => SingleKey(b)
    case (None, None) => NoKey
  }

  /** A decoded storage entry: its name, the accessor for its shape, its
      value type and its keys. */
  datatype StorageEntry = StorageEntry(name: string, accessor: string, value: RuntimeType, keys: KeyForm)

  /** The types an entry contributes, as the program pushes them: the value
      type first, then the key types. */
  function EntryTypes(s: StorageEntry): (tys: seq<RuntimeType>)
    ensures |tys| == 1 + |KeyTypes(s.keys)|
    ensures tys[0] == s.value
  {
    [s.value] + KeyTypes(s.keys)
  }

  /** One iteration of the entry loop of `add_storage_to_module`: the name
      is decoded, then the value type, then the first and second key types.
      It succeeds exactly when the name and every type string of the shape
      are decoded, and the entry then contributes one parsed type per type
      string, in the order value, first key, second key. */
  function DecodeEntry(e: StorageEntryMetadata): (r: Result<StorageEntry>)
    ensures r.Ok? <==> e.name.Decoded? && TypesDecoded(e.ty)
    ensures r.Ok? ==> r.value.name == e.name.value && r.value.accessor == AccessorName(e.ty)
    ensures r.Ok? ==> MapAll(TypeStrings(e.ty), ParseStorageType) == Ok(EntryTypes(r.value))
    ensures r.Ok? ==> (r.value.keys.NoKey? <==> e.ty.Plain?)
    ensures r.Ok? ==> (r.value.keys.SingleKey? <==> e.ty.Map?)
    ensures r.Ok? ==> (r.value.keys.KeyPair? <==> e.ty.DoubleMap?)
    ensures r.Err? ==> r.error == NotDecoded
  {
    var name :- DecodeOrElse(e.name);
    var parts := EntryTypeParts(e.ty);
    PartsDecoded(e.ty);
    var value :- ParseStorageType(parts.value);
    var key1 :- ParseKey(parts.key1);
    var key2 :- ParseKey(parts.key2);
    var keys := ClassifyKeys(key1, key2);
    PartsParsed(e.ty, ParseStorageType, value, key1, key2);
    Ok(StorageEntry(name, AccessorName(e.ty), value, keys))
  }

  /** The type strings of a shape are all decoded exactly when its value
      string and each key string present are. */
  lemma PartsDecoded(ty: StorageEntryType)
    ensures var p := EntryTypeParts(ty);
      TypesDecoded(ty) <==>
        && p.value.Decoded?
        && (p.key1.Some? ==> p.key1.value.Decoded?)
        && (p.key2.Some? ==> p.key2.value.Decoded?)
  {
  }

  /** Parsing the destructured parts one by one gives the same types as
      parsing the type strings of the shape in order, and the key form of
      the shape; `parse` stands for `parse_storage_ty`. */
  lemma PartsParsed(ty: StorageEntryType, parse: DecodeDifferent<string> -> Result<RuntimeType>,
                    value: RuntimeType, key1: Option<RuntimeType>, key2: Option<RuntimeType>)
    requires parse(TypeStrings(ty)[0]) == Ok(value)
    requires key1.Some? <==> !ty.Plain?
    requires key2.Some? <==> ty.DoubleMap?
    requires key1.Some? ==> parse(TypeStrings(ty)[1]) == Ok(key1.value)
    requires key2.Some? ==> parse(TypeStrings(ty)[2]) == Ok(key2.value)
    ensures MapAll(TypeStrings(ty), parse) == Ok([value] + KeyTypes(ClassifyKeys(key1, key2)))
    ensures ClassifyKeys(key1, key2).NoKey? <==> ty.Plain?
    ensures ClassifyKeys(key1, key2).SingleKey? <==> ty.Map?
    ensures ClassifyKeys(key1, key2).KeyPair? <==> ty.DoubleMap?
  {
    var strs := TypeStrings(ty);
    var tys := [value] + KeyTypes(ClassifyKeys(key1, key2));
    match ty {
      case Plain(_) =>
        assert ClassifyKeys(key1, key2) == NoKey;
        assert tys == [value];
      case Map(_, _, _, _) =>
        assert ClassifyKeys(key1, key2) == SingleKey(key1.value);
        assert tys == [value] + [key1.value];
      case DoubleMap(_, _, _, _, _) =>
        assert ClassifyKeys(key1, key2) == KeyPair(key1.value, key2.value);
        assert tys == [value] + [key1.value, key2.value];
    }
    forall i | 0 <= i < |strs| ensures parse(strs[i]) == Ok(tys[i]) {
      if i == 0 {
      } else if i == 1 {
        assert tys[1] == key1.value;
      } else {
        assert tys[2] == key2.value;
      }
    }
    MapAllValues(strs, parse, tys);
  }

  /** The types one entry contributes, or the error that aborts the loop. */
  function EntryContribution(e: StorageEntryMetadata): (r: Result<seq<RuntimeType>>)
    ensures r.Ok? <==> DecodeEntry(e).Ok?
    ensures r.Ok? ==> r.value == EntryTypes(DecodeEntry(e).value)
    ensures r.Err? ==> r.error == NotDecoded
  {
    match DecodeEntry(e)
    case Err(err) => Err(err)
    case Ok(s) => Ok(EntryTypes(s))
  }

  /** The type list of `add_storage_to_module`. The prefix, although unused,
      must be decoded, and so must the entry list; the result is the
      concatenation, in entry order, of what each entry contributes, and the
      first entry that fails aborts the whole storage. */
  function AddStorageToModule(s: StorageMetadata): (r: Result<seq<RuntimeType>>)
    ensures r.Ok? <==>
      && s.prefix.Decoded?
      && s.entries.Decoded?
      && forall i :: 0 <= i < |s.entries.value| ==> DecodeEntry(s.entries.value[i]).Ok?
    ensures r.Ok? ==> r.value == Concat(MapAll(s.entries.value, EntryContribution).value)
    ensures r.Ok? ==> forall t :: t in r.value <==>
      exists i :: 0 <= i < |s.entries.value| && t in EntryTypes(DecodeEntry(s.entries.value[i]).value)
    ensures r.Err? ==> r.error == NotDecoded
  {
    var _ :- DecodeOrElse(s.prefix);
    var entries :- DecodeOrElse(s.entries);
    var r := ConcatMap(entries, EntryContribution);
    assert r.Err? ==> r.error == NotDecoded by {
      if r.Err? {
        var k :| FirstFailure(entries, EntryContribution, k) && MapAll(entries, EntryContribution).error == EntryContribution(entries[k]).error;
      }
    }
    r
  }

  /** Replaces the hashers of an entry shape, and the `unused` flag of a
      map. */
  function WithHashers(ty: StorageEntryType, h1: StorageHasher, h2: StorageHasher, unused: bool): StorageEntryType
  {
    match ty
    case Plain(v) => Plain(v)
    case Map(_, k, v, _) => Map(h1, k, v, unused)
    case DoubleMap(_, k1, k2, v, _) => DoubleMap(h1, k1, k2, v, h2)
  }

  /** The hashers and the `unused` flag play no part in decoding an entry. */
  lemma HashersIgnored(e: StorageEntryMetadata, h1: StorageHasher, h2: StorageHasher, unused: bool)
    ensures DecodeEntry(StorageEntryMetadata(e.name, WithHashers(e.ty, h1, h2, unused))) == DecodeEntry(e)
  {
    var ty := WithHashers(e.ty, h1, h2, unused);
    assert EntryTypeParts(ty) == EntryTypeParts(e.ty);
    assert AccessorName(ty) == AccessorName(e.ty);
  }

  /** A storage with a decoded prefix and a single entry contributes exactly
      that entry's types. */
  lemma SingleEntryStorage(prefix: string, e: StorageEntryMetadata)
    ensures AddStorageToModule(StorageMetadata(Decoded(prefix), Decoded([e]))) == EntryContribution(e)
  {
    ConcatMapSingle(e, EntryContribution);
  }
}

=== FILE: text.dfy ===
/**
 The string operations of Rust's `str` that the type grammar is built from:
 `starts_with`, `find`, `rfind`, `trim`, `trim_start_matches`, `split` and
 `join`. Strings are sequences of characters and indices are character
 indices, which coincide with Rust's byte indices on ASCII text.
 */
module Text {
  import opened Results

  /** `p` occurs in `s` starting at index `i`. */
  predicate OccursAt(s: string, p: string, i: nat)
  {
    i + |p| <= |s| && s[i..i + |p|] == p
  }

  /** `str::starts_with`. */
  predicate StartsWith(s: string, p: string)
  {
    p <= s
  }

  /** A string starts with `p` exactly when `p` occurs at its start. */
  lemma PrefixAt(s: string, p: string)
    ensures StartsWith(s, p) <==> OccursAt(s, p, 0)
  {
    if |p| <= |s| {
      assert s[0..|p|] == s[..|p|];
    }
  }

  /** Occurring at `j >= 1` is occurring at `j - 1` once the first
      character is dropped. */
  lemma OccursInTail(s: string, p: string, j: nat)
    requires 1 <= j <= |s|
    ensures OccursAt(s, p, j) <==> OccursAt(s[1..], p, j - 1)
  {
    if j + |p| <= |s| {
      var a := s[1..][j - 1..j - 1 + |p|];
      assert forall i :: 0 <= i < |p| ==> a[i] == s[j + i];
      assert a == s[j..j + |p|];
    }
  }

  /** `str::find`: the index of the first occurrence of `p`, if any. */
  function Find(s: string, p: string): (r: Option<nat>)
    ensures r.Some? ==> OccursAt(s, p, r.value)
    ensures r.Some? ==> forall j :: 0 <= j < r.value ==> !OccursAt(s, p, j)
    ensures r.None? ==> forall j :: 0 <= j <= |s| ==> !OccursAt(s, p, j)
    decreases |s|
  {
    if |s| < |p| then None
    else if p <= s then
      assert s[0..|p|] == p;
      Some(0)
    else
      var rest := Find(s[1..], p);
      assert forall j :: 1 <= j <= |s| && OccursAt(s, p, j) ==> OccursAt(s[1..], p, j - 1) by {
        forall j | 1 <= j <= |s| && OccursAt(s, p, j) ensures OccursAt(s[1..], p, j - 1) {
          OccursInTail(s, p, j);
        }
      }
      assert !OccursAt(s, p, 0) by {
        PrefixAt(s, p);
      }
      match rest
      case None => None
      case Some(k) =>
        OccursInTail(s, p, k + 1);
        Some(k + 1)
  }

  /** An occurrence that ends before the last character is an occurrence
      in the string without that character. */
  lemma OccursInFront(s: string, p: string, j: nat)
    requires j + |p| < |s| && OccursAt(s, p, j)
    ensures OccursAt(s[..|s| - 1], p, j)
  {
    assert s[..|s| - 1][j..j + |p|] == s[j..j + |p|];
  }

  /** An occurrence in the string without its last character is an
      occurrence in the whole string. */
  lemma OccursBeyondFront(s: string, p: string, j: nat)
    requires |s| > 0 && OccursAt(s[..|s| - 1], p, j)
    ensures OccursAt(s, p, j)
  {
    assert s[..|s| - 1][j..j + |p|] == s[j..j + |p|];
  }

  /** `str::rfind`: the index of the last occurrence of `p`, if any. */
  function RFind(s: string, p: string): (r: Option<nat>)
    ensures r.Some? ==> OccursAt(s, p, r.value)
    ensures r.Some? ==> forall j :: r.value < j <= |s| ==> !OccursAt(s, p, j)
    ensures r.None? ==> forall j :: 0 <= j <= |s| ==> !OccursAt(s, p, j)
    decreases |s|
  {
    if |s| < |p| then None
    else if OccursAt(s, p, |s| - |p|) then Some(|s| - |p|)
    else
      var front := s[..|s| - 1];
      assert forall j :: 0 <= j && j + |p| < |s| && OccursAt(s, p, j) ==> OccursAt(front, p, j) by {
        forall j | 0 <= j && j + |p| < |s| && OccursAt(s, p, j) ensures OccursAt(front, p, j) {
          OccursInFront(s, p, j);
        }
      }
      match RFind(front, p)
      case None => None
      case Some(k) =>
        OccursBeyondFront(s, p, k);
        Some(k)
  }

  /** `str::contains`. */
  predicate Contains(s: string, p: string)
  {
    Find(s, p).Some?
  }

  /** A string that starts with `p` finds `p` at index 0. */
  lemma FindPrefix(s: string, p: string)
    requires StartsWith(s, p)
    ensures Find(s, p) == Some(0)
  {
    assert OccursAt(s, p, 0) by {
      assert s[0..|p|] == s[..|p|];
    }
  }

  /** A string that ends with the character `c` contains it, and its last
      occurrence is the final index. */
  lemma RFindFinal(s: string, c: char)
    requires |s| > 0 && s[|s| - 1] == c
    ensures Contains(s, [c])
    ensures RFind(s, [c]) == Some(|s| - 1)
  {
    assert OccursAt(s, [c], |s| - 1) by {
      assert s[|s| - 1..|s|] == [c];
    }
  }

  /** A character that does not occur in `s` is not found. */
  lemma FindAbsent(s: string, c: char)
    requires c !in s
    ensures Find(s, [c]) == None
  {
    forall j: nat | j + 1 <= |s| ensures !OccursAt(s, [c], j) {
      assert s[j..j + 1] == [s[j]];
    }
  }

  /** Rust's `char::is_whitespace`: the Unicode White_Space property. */
  predicate IsWhitespace(c: char)
  {
    || c == ' '
    || '\t' <= c <= '\r'
    || c == '\U{0085}' || c == '\U{00A0}' || c == '\U{1680}'
    || '\U{2000}' <= c <= '\U{200A}'
    || c == '\U{2028}' || c == '\U{2029}' || c == '\U{202F}' || c == '\U{205F}'
    || c == '\U{3000}'
  }

  /** `t` is a suffix of `s`. */
  predicate IsSuffix(t: string, s: string)
  {
    |t| <= |s| && t == s[|s| - |t|..]
  }

  /** `str::trim_start`: drops the leading whitespace and nothing else. */
  function TrimStart(s: string): (r: string)
    ensures IsSuffix(r, s)
    ensures forall i :: 0 <= i < |s| - |r| ==> IsWhitespace(s[i])
    ensures |r| == 0 || !IsWhitespace(r[0])
  {
    if |s| > 0 && IsWhitespace(s[0]) then
      var r := TrimStart(s[1..]);
      assert forall i :: 1 <= i < |s| - |r| ==> s[i] == s[1..][i - 1];
      r
    else s
  }

  /** `str::trim_end`: drops the trailing whitespace and nothing else. */
  function TrimEnd(s: string): (r: string)
    ensures r <= s
    ensures forall i :: |r| <= i < |s| ==> IsWhitespace(s[i])
    ensures |r| == 0 || !IsWhitespace(r[|r| - 1])
  {
    if |s| > 0 && IsWhitespace(s[|s| - 1]) then
      var r := TrimEnd(s[..|s| - 1]);
      r
    else s
  }

  /** `str::trim`: drops leading and trailing whitespace. */
  function Trim(s: string): (r: string)
    ensures |r| <= |s|
    ensures |r| == 0 || (!IsWhitespace(r[0]) && !IsWhitespace(r[|r| - 1]))
    ensures |s| > 0 && !IsWhitespace(s[0]) && !IsWhitespace(s[|s| - 1]) ==> r == s
  {
    TrimEnd(TrimStart(s))
  }

  /** `trim` removes white space at the two ends and nothing else: the
      result is a slice of the input with only white space around it. */
  lemma TrimKeepsMiddle(s: string)
    ensures exists i :: MiddleAt(s, Trim(s), i)
  {
    MiddleSlice(s, TrimStart(s), Trim(s));
  }

  /** `r` is the slice of `s` starting at index `i`, and everything in `s`
      around that slice is white space. */
  predicate MiddleAt(s: string, r: string, i: int)
  {
    && 0 <= i <= |s| - |r|
    && r == s[i..i + |r|]
    && (forall k :: 0 <= k < i ==> IsWhitespace(s[k]))
    && (forall k :: i + |r| <= k < |s| ==> IsWhitespace(s[k]))
  }

  /** Cutting a white-space prefix and then a white-space suffix leaves a
      slice of the input with only white space around it. */
  lemma MiddleSlice(s: string, t: string, r: string)
    requires IsSuffix(t, s) && forall k :: 0 <= k < |s| - |t| ==> IsWhitespace(s[k])
    requires r <= t && forall k :: |r| <= k < |t| ==> IsWhitespace(t[k])
    ensures exists i :: MiddleAt(s, r, i)
  {
    var i := |s| - |t|;
    assert r == s[i..i + |r|] by {
      assert t == s[i..];
      assert r == t[..|r|];
    }
    forall k | i + |r| <= k < |s| ensures IsWhitespace(s[k]) {
      assert s[k] == t[k - i];
    }
    assert MiddleAt(s, r, i);
  }

  /** `x` is zero or more copies of `p` end to end. */
  ghost predicate Repeats(x: string, p: string)
    decreases |x|
  {
    |x| == 0 || (0 < |p| <= |x| && x[..|p|] == p && Repeats(x[|p|..], p))
  }

  /** `str::trim_start_matches` with a string pattern: strips copies of `p`
      from the front for as long as the string starts with it. An empty
      pattern strips nothing. */
  function TrimStartMatches(s: string, p: string): (r: string)
    ensures IsSuffix(r, s)
    ensures Repeats(s[..|s| - |r|], p)
    ensures |p| > 0 ==> !StartsWith(r, p)
    decreases |s|
  {
    if |p| > 0 && StartsWith(s, p) then
      var rest := s[|p|..];
      var r := TrimStartMatches(rest, p);
      assert s[..|s| - |r|] == p + rest[..|rest| - |r|];
      RepeatsPrepend(p, rest[..|rest| - |r|]);
      r
    else
      assert s[..|s| - |s|] == [];
      s
  }

  /** One more leading copy of the pattern keeps a repetition one. */
  lemma RepeatsPrepend(p: string, x: string)
    requires |p| > 0 && Repeats(x, p)
    ensures Repeats(p + x, p)
  {
    assert (p + x)[..|p|] == p;
    assert (p + x)[|p|..] == x;
  }

  /** Copies of `p` are stripped one at a time: stripping `p` first changes
      nothing. */
  lemma TrimStartMatchesStep(s: string, p: string)
    requires |p| > 0
    ensures TrimStartMatches(p + s, p) == TrimStartMatches(s, p)
  {
    assert (p + s)[|p|..] == s;
  }

  /** A string that does not start with the pattern is left alone. */
  lemma TrimStartMatchesNoPrefix(s: string, p: string)
    requires !StartsWith(s, p)
    ensures TrimStartMatches(s, p) == s
  {
  }

  /** The parts separated by `sep`: the Rust expression `parts.join(sep)`. */
  function Join(parts: seq<string>, sep: char): (r: string)
    ensures forall i :: 0 <= i < |parts| ==> |parts[i]| <= |r|
  {
    if |parts| == 0 then ""
    else if |parts| == 1 then parts[0]
    else parts[0] + [sep] + Join(parts[1..], sep)
  }

  /** `str::split` on a one-character pattern: the pieces between successive
      separators, so one more piece than there are separators. Joining the
      pieces back with the separator gives the input. */
  function Split(s: string, sep: char): (r: seq<string>)
    ensures |r| > 0
    ensures forall i :: 0 <= i < |r| ==> sep !in r[i]
    ensures forall i :: 0 <= i < |r| ==> |r[i]| <= |s|
    ensures Join(r, sep) == s
  {
    if |s| == 0 then [""]
    else
      var rest := Split(s[1..], sep);
      if s[0] == sep then
        [""] + rest
      else
        var r := [[s[0]] + rest[0]] + rest[1..];
        assert forall i :: 1 <= i < |r| ==> r[i] == rest[i];
        JoinExtendFirst([s[0]], rest, sep);
        r
  }

  /** Prepending to the first part prepends to the join. */
  lemma JoinExtendFirst(x: string, parts: seq<string>, sep: char)
    requires |parts| > 0
    ensures Join([x + parts[0]] + parts[1..], sep) == x + Join(parts, sep)
  {
    var ps := [x + parts[0]] + parts[1..];
    assert ps[1..] == parts[1..];
  }

  /** Splitting a string without separators followed by more text extends the
      first piece. */
  lemma {:induction false} SplitPrefix(a: string, rest: string, sep: char)
    requires sep !in a
    ensures Split(a + rest, sep) == [a + Split(rest, sep)[0]] + Split(rest, sep)[1..]
    decreases |a|
  {
    if |a| > 0 {
      assert (a + rest)[1..] == a[1..] + rest;
      assert a[0] != sep;
      SplitPrefix(a[1..], rest, sep);
      assert [a[0]] + (a[1..] + Split(rest, sep)[0]) == a + Split(rest, sep)[0];
    } else {
      var pieces := Split(rest, sep);
      assert a + rest == rest;
      assert a + pieces[0] == pieces[0];
      assert pieces == [pieces[0]] + pieces[1..];
    }
  }

  /** Splitting undoes joining, provided no part contains the separator and
      there is at least one part (`"".split(",")` yields one empty piece). */
  lemma {:induction false} SplitJoin(parts: seq<string>, sep: char)
    requires |parts| > 0
    requires forall i :: 0 <= i < |parts| ==> sep !in parts[i]
    ensures Split(Join(parts, sep), sep) == parts
    decreases |parts|
  {
    if |parts| == 1 {
      SplitPrefix(parts[0], "", sep);
      assert Split("", sep) == [""];
      assert parts[0] + "" == parts[0];
      assert parts == [parts[0]];
    } else {
      var tail := Join(parts[1..], sep);
      SplitJoin(parts[1..], sep);
      assert Join(parts, sep) == parts[0] + ([sep] + tail);
      SplitPrefix(parts[0], [sep] + tail, sep);
      assert ([sep] + tail)[1..] == tail;
      assert Split([sep] + tail, sep) == [""] + Split(tail, sep);
      assert parts[0] + "" == parts[0];
      assert parts == [parts[0]] + parts[1..];
    }
  }

  /** `split` yields one more piece than there are separators in the input. */
  lemma {:induction false} SplitCount(s: string, sep: char)
    ensures |Split(s, sep)| == multiset(s)[sep] + 1
    decreases |s|
  {
    if |s| > 0 {
      SplitCount(s[1..], sep);
      assert s == [s[0]] + s[1..];
      assert multiset(s) == multiset{s[0]} + multiset(s[1..]);
    }
  }
}
